=== FILE: README.md ===
# ingestion_template in Dafny

A model of the ingestion script of `ingestion_template` (`src/main.py`). For each
configured dataset the script:

1. finds the source files in `./data/<data_dir>` that end with the dataset's extension
   (one file, or several in multi-file mode);
2. renames file number `k` to the canonical name `<dataset>_<k>.csv`;
3. uploads the file to the Snowflake stage `LOADING_STAGE`;
4. for csv datasets, ingests it into `<table_name>` through `<table_name>__STAGING`;
5. optionally moves the file to `./data/archive/<data_dir>/`.

The model is split by component:

- `text.dfy` (`Text`): the Python string operations the script relies on:
  - `sep.join`; `Split` is not called by the script, it is the reference inverse that states what
    a join contains (splitting a join gives back its parts);
  - `str.endswith` and `replace("\\", "/")`;
  - `str(n)` for natural numbers, with its decimal round trip;
  - the trailing-separator trimming of `os.path.abspath`.
- `file_locator.dfy` (`FileLocator`): `get_target_file`.
- `naming.dfy` (`Naming`): the canonical file name and the two paths of `cleanse_source_file`.
- `staging.dfy` (`Staging`): the parameters `stage` renders its PUT statement with.
- `ingest.dfy` (`Ingest`): the parameters `ingest_csv` renders its statements with. These are the
  column list, the column definitions and the three custom-column fragments.
- `pipeline.dfy` (`Pipeline`): the main loop.
  - Configuration lookups may be missing (a `KeyError`).
  - `os.rename` is platform dependent: POSIX replaces an existing destination, Windows refuses it.
  - The functions `ProcessFile`, `RunFiles`, `RunDataset` and `RunAll` specify the run.
  - The class `Workspace` holds the mutable state (the files on disk and the log of warehouse
    calls). Its methods follow the script statement by statement and are proved equal to those
    functions.
- `pipeline_properties.dfy` (`PipelineProperties`): what the loop guarantees.
  - Without archiving: canonical placement of every file. With archiving: where one iteration
    leaves its file, and what happens when that archive name is already taken.
  - Re-running on canonical names renames nothing.
  - On Windows no file is ever lost.
  - Every warehouse call carries the configured table, columns, delimiter and encoding.
  - What a refused upload leaves behind.
- `scenarios.dfy` (`Scenarios`): concrete runs.
  - The end-to-end upload of `report.csv` for a `sales` dataset.
  - The case where a later file already carries the canonical name of an earlier one. On POSIX
    the script silently overwrites that later file and uploads the earlier file's contents twice.
    On Windows the first rename fails and nothing is lost.
  - Running the `sales` dataset twice: the second pass finds the directory empty.
  - A `txt` dataset whose first file is renamed onto an unselected `sales_0.csv`, replacing it.
  - An archive collision: a new `report.csv` while `./data/archive/sales/sales_0.csv` is left
    from an earlier batch. On POSIX the archived file is replaced and its contents are lost. On
    Windows the run stops with FileExists after the ingestion, and the ingested file stays in
    `./data/sales/`, so the next run ingests it again.
  - `data_dir = "sales"` without a trailing `/`. The file is selected through `os.path.join`
    (`./data/sales/report.csv`), but `cleanse_source_file` concatenates (`./data/salesreport.csv`),
    so the run stops with FileNotFound before any call. With the POSIX join modelled here, a
    dataset works only when `data_dir` ends with `/` (or is empty).

The filesystem is a map from path to contents. The directory listing (which names a directory
lists, in which order, and whether it exists) and the answers of the warehouse (one boolean per
external call, in call order) are parameters of the run (`World`).
The environment variables are parameters too (`Env`).

## Model

| member | source | states |
|---|---|---|
| Text.JoinAppend | src/main.py:92-93 | joining one more part appends the separator and the part to the joined string |
| Text.FindFrom | src/main.py:92-93 | the search that defines `Split`, the inverse of `sep.join`: it returns the first occurrence of the separator at or after the start, or reports that there is none |
| Text.SplitJoin | src/main.py:92-93 | splitting a `sep.join` on the separator gives back the parts, when no part contains the separator |
| Text.ForwardSlashes | src/main.py:225 | `replace("\\", "/")` keeps the length, leaves no backslash, turns every backslash into a slash and keeps every other character |
| Text.ForwardSlashesKeeps | src/main.py:225 | a path without backslashes is unchanged |
| Text.TrimTrailing | src/main.py:246-247 | the result is a prefix of the input that does not end with the character, and only that character was removed |
| Text.TrimTrailingUnique | src/main.py:246-247 | any prefix that does not end with the character and is followed only by that character is the trimmed string |
| Text.DecimalString | src/main.py:218 | `str(n)` is non-empty and made of decimal digits, and it has no leading zero: it starts with `0` only for `n == 0`, and then it is the single digit |
| Text.DecimalRoundTrip | src/main.py:218 | reading back `str(n)` gives `n` |
| Text.DecimalStringInjective | src/main.py:218 | distinct file numbers give distinct `str` suffixes |
| Text.PrefixCancel | src/main.py:40-41 | two paths in the same directory are equal exactly when the file names are |
| Text.SuffixCancel | src/main.py:252-253 | the same file name in two directories gives equal paths exactly when the directories are equal |
| FileLocator.MatchesMember | src/main.py:24-26 | a name is selected exactly when some listing entry with that name is a regular file ending with the extension |
| FileLocator.MatchesSound | src/main.py:24-26 | every selected name comes from a regular file of the listing with the extension |
| FileLocator.MatchesAppend | src/main.py:24-26 | the selection keeps listing order: selecting from two listings one after another equals selecting from their concatenation |
| FileLocator.MatchesNone | src/main.py:24-28 | a listing without a target file selects nothing |
| FileLocator.PathJoinShape | src/main.py:25 | `os.path.join`: an absolute name stands alone; a relative name follows the directory with at most one added `/`, with a `/` right before it when the directory is non-empty; the join is plain concatenation exactly when the directory is empty or ends with `/` |
| FileLocator.ListedMatches | src/main.py:24-26 | the comprehension keeps a name exactly when the directory lists it, it ends with the extension, and its joined path is a regular file |
| FileLocator.TargetsAreFiles | src/main.py:24-37 | every selected name was listed, ends with the extension, and its joined path is a file |
| FileLocator.GetTargetFile | src/main.py:13-37 | every result is a target file; the result is empty exactly when nothing matches, or when several match outside multi-file mode; otherwise it is every match in listing order; more than one file only in multi-file mode |
| FileLocator.SingleMatch | src/main.py:28-37 | exactly one target file gives exactly that name, in either mode |
| FileLocator.SeveralMatches | src/main.py:32-37 | two or more target files give nothing outside multi-file mode and all of them in it |
| Naming.CleanseGivesCanonicalName | src/main.py:39-43 | `cleanse_source_file` with suffix `str(k)` renames `dir + filename` to `dir + <ds>_<k>.csv` |
| Naming.CanonicalNameInjective | src/main.py:218-223 | distinct file numbers of one dataset get distinct canonical names |
| Naming.CanonicalNameMatchesExtension | src/main.py:24-26 | a canonical name ends with an extension of at most four characters exactly when `.csv` does, so renamed files keep matching a `csv` selection |
| Staging.BuildStageParams | src/main.py:54-62 | the stage is LOADING_STAGE; the path is `file://` followed by the file path and stays backslash-free; compression is off; role, database, schema and overwrite come from the environment |
| Ingest.BuildParams | src/main.py:107-121 | the staging table is `<table>__STAGING` and differs from the destination; stage, file name, skip rows, delimiter and encoding are passed through |
| Ingest.ListSepSeparates | src/main.py:92 | a name without a comma cannot be confused with the `", "` separator |
| Ingest.DefinitionSepSeparates | src/main.py:93 | a definition without a line break cannot be confused with the `",\n  "` separator |
| Ingest.ColumnListEntries | src/main.py:92 | the column list has one entry per column, in mapping order, each the name in double quotes |
| Ingest.ColumnDefinitionEntries | src/main.py:93 | the definitions have one entry per column, in mapping order, each the quoted name followed by its type |
| Ingest.NoColumns | src/main.py:92-93 | an empty column mapping gives an empty list and empty definitions |
| Ingest.CustomFragments | src/main.py:95-105 | without custom columns (False or an empty mapping) all three fragments are empty; with them each starts with `", "` and then has one entry per custom column: the quoted name, `value AS name` (name unquoted) and the quoted name with its type |
| Ingest.AddingCustomColumn | src/main.py:95-101 | one more custom column appends exactly one separator and entry to each fragment; the definitions use `", "` before the first and `",\n  "` before later ones |
| Ingest.AddingCustomName | src/main.py:96 | one more custom column appends `", "` and its quoted name to the list |
| Ingest.AddingCustomValue | src/main.py:97-98 | one more custom column appends `", "` and `value AS name` to the values |
| Ingest.AddingCustomDefinition | src/main.py:99-101 | one more custom column appends a separator and its definition to the definitions |
| Pipeline.Rename | src/main.py:43 | the rename succeeds exactly when the source exists and, on Windows, the destination does not; a missing source is FileNotFound; an existing destination on Windows is FileExists for it; on success the source disappears, the destination holds the source's contents and every other path is unchanged |
| Pipeline.ArchiveDirectory | src/main.py:246-253 | the archive directory is `./data/archive/` followed by `data_dir` without its trailing separators, then one `/` when that is non-empty; it ends with exactly one separator before the file name |
| Pipeline.SetUp | src/main.py:199-214 | set-up succeeds exactly when the dataset, `file_ext` and `data_dir` keys exist and `./data/<data_dir>` can be listed; otherwise it fails with MissingKey naming the dataset, `file_ext` or `data_dir` (the first one missing), or with FileNotFound for the directory; the files are `get_target_file` of the current listing of that directory with the `MULTI_FILES == "true"` flag; the delimiter defaults to `,` and the encoding to `UTF-8` |
| Pipeline.RunFilesHalted | src/main.py:216-253 | once a file fails, no later file of the dataset is touched |
| Pipeline.RunAllHalted | src/main.py:194-253 | once a dataset fails, no later dataset is touched |
| Pipeline.Workspace.constructor | src/main.py:147-152 | the run starts from the given files with no warehouse call made |
| Pipeline.Workspace.RenameFile | src/main.py:43 | `os.rename` updates the files as `Rename` says, or leaves them unchanged and reports its failure |
| Pipeline.Workspace.CleanseSourceFile | src/main.py:39-43 | renames `dir + filename` to `dir + ds + "_" + suffix + ".csv"` as `Rename` says |
| Pipeline.Workspace.Stage | src/main.py:45-81 | appends exactly one stage call with the stage parameters, leaves the files unchanged, and succeeds as the warehouse answers |
| Pipeline.Workspace.IngestCsv | src/main.py:83-145 | appends exactly one ingest call with the ingest parameters, leaves the files unchanged, and succeeds as the warehouse answers |
| Pipeline.Workspace.ProcessFileAt | src/main.py:218-253 | one iteration of the file loop leaves the files, the call log and the failure as `ProcessFile` specifies |
| Pipeline.Workspace.ProcessNextFile | src/main.py:216-253 | from the state after `k` files, one more iteration reaches the state `RunFiles` specifies after `k + 1` |
| Pipeline.Workspace.ProcessFiles | src/main.py:216-253 | the file loop stops at the first failure and ends in the state `RunFiles` specifies |
| Pipeline.Workspace.ProcessDataset | src/main.py:196-253 | one dataset ends in the state `RunDataset` specifies |
| Pipeline.Workspace.ProcessNext | src/main.py:194-253 | from the state after `i` datasets, one more dataset reaches the state `RunAll` specifies after `i + 1` |
| Pipeline.Workspace.Run | src/main.py:194-253 | the whole run stops at the first failure and ends in the state `RunAll` specifies |
| PipelineProperties.UploadKeepsFiles | src/main.py:225-244 | without archiving, staging and ingesting a file leave the filesystem unchanged |
| PipelineProperties.ProcessFileMoves | src/main.py:218-244 | without archiving, a successful iteration either changes nothing (the name was canonical) or is exactly the rename to the canonical name in the same directory |
| PipelineProperties.PlacementStep | src/main.py:221-223 | renaming file `k` to its canonical name extends the placement of the first `k` files to `k + 1` |
| PipelineProperties.FrameStep | src/main.py:221-223 | renaming file `k` to its canonical name keeps every other path that is neither a selected name nor a canonical name reached so far, and adds no path but the canonical one |
| PipelineProperties.CanonicalPlacement | src/main.py:216-244 | without archiving and with distinct names, after `n` successful iterations file `k < n` holds its original contents under `<ds>_<k>.csv` and the files not yet reached are untouched, unless a later file already carries an earlier canonical name; every other path keeps its contents, and no path appears but a canonical one |
| PipelineProperties.CanonicalFileKept | src/main.py:221 | a file already carrying its canonical name is not renamed |
| PipelineProperties.CanonicalNamesAreKept | src/main.py:216-244 | re-running on files that already carry their canonical names leaves the filesystem unchanged, whatever the warehouse answers |
| PipelineProperties.RenameWithoutReplacing | src/main.py:43 | a Windows rename keeps every content and the number of files |
| PipelineProperties.IngestKeepsFiles | src/main.py:233-242 | ingesting never touches the filesystem |
| PipelineProperties.UploadMovesOnlyToArchive | src/main.py:225-253 | an upload that changes the files did so because archiving is on and the stage call (and, for csv, the ingest call with every table key present) was accepted, and the change is exactly the move of the file into the archive directory |
| PipelineProperties.ArchivedUpload | src/main.py:244-253 | with archiving on, an upload that succeeds has moved the file from the dataset directory into the archive directory |
| PipelineProperties.ArchiveOutsideDataDir | src/main.py:246-247 | a dataset's archive directory is never its data directory |
| PipelineProperties.ArchivedStep | src/main.py:218-253 | with archiving on, a successful iteration leaves file `k`'s original contents at `ArchiveDir(data_dir) + <ds>_<k>.csv`, removes its old and canonical names from the dataset directory, and changes nothing else, so an archived file of that name is replaced |
| PipelineProperties.ArchiveMoveRefused | src/main.py:229-253 | a refused archive move ends the run with that failure after the stage and ingest calls, with the files unchanged |
| PipelineProperties.IngestFailureLeavesFile | src/main.py:229-253 | a refused ingest stops the run with IngestFailed for the table after a stage call and an ingest call, and the file stays where it is, not archived |
| PipelineProperties.UploadOnWindows | src/main.py:225-253 | on Windows uploading and archiving keep every content and the number of files |
| PipelineProperties.ProcessFileOnWindows | src/main.py:218-253 | on Windows one iteration keeps every content and the number of files |
| PipelineProperties.WindowsKeepsEveryFile | src/main.py:216-253 | on Windows the file loop never loses a file's contents, whatever fails |
| PipelineProperties.ExtendsTransitive | src/main.py:229-242 | extending the call log with well-formed calls composes |
| PipelineProperties.IngestCalls | src/main.py:233-242 | the ingest step only appends a well-formed ingest call |
| PipelineProperties.UploadCalls | src/main.py:225-242 | an upload only appends well-formed calls: the stage call (LOADING_STAGE, a `file://` path without backslashes), then possibly the ingest call |
| PipelineProperties.ProcessFileCalls | src/main.py:218-253 | one iteration only appends well-formed calls |
| PipelineProperties.RunFilesCalls | src/main.py:216-253 | the file loop only appends well-formed calls |
| PipelineProperties.DatasetCalls | src/main.py:196-253 | processing a dataset keeps earlier calls and appends only calls that carry its table, `<table>__STAGING`, its columns, and its delimiter and encoding (`,` and `UTF-8` when absent) |
| PipelineProperties.StageFailureKeepsRenamedFile | src/main.py:221-229 | when the upload of file `k` is refused the run stops with that failure, the file stays renamed in the dataset directory, and the upload is the last call made |
| PipelineProperties.SuccessfulUpload | src/main.py:225-253 | with everything accepted, an upload makes the stage call and then the ingest call, and then moves the file to the archive when archiving is on and leaves the files unchanged when it is off |
| PipelineProperties.RenamedThenUploaded | src/main.py:221-229 | a file with a non-canonical name is renamed first and then uploaded under its canonical name |
| PipelineProperties.SelectedFilesExist | src/main.py:24-26 | every file set-up selects is a file of the dataset directory at the time of the listing |
| PipelineProperties.MissingDirectoryEndsRun | src/main.py:24 | a dataset whose directory does not exist ends the run with FileNotFound for it, and no later dataset is processed |
| PipelineProperties.SelectedSourcesFound | src/main.py:24-43 | when `./data/<data_dir>` ends with `/`, every selected relative name is found by the rename's concatenated source path |
| PipelineProperties.SingleFileDataset | src/main.py:203-216 | a dataset whose directory yields one file is one iteration of the file loop |
| Scenarios.SalesSetUp | src/main.py:199-214 | `./data/sales/` with `report.csv` gives the target `report.csv` with the default delimiter and encoding |
| Scenarios.SalesSetUpAfterArchive | src/main.py:24-30 | once `report.csv` has been archived, the sales directory offers nothing to select |
| Scenarios.SalesArchiveDir | src/main.py:246-253 | the archive directory of `sales/` is `./data/archive/sales/` |
| Scenarios.SalesColumnList | src/main.py:92 | the columns DATE and AMOUNT give the list `"DATE", "AMOUNT"` |
| Scenarios.SalesUpload | src/main.py:225-253 | the renamed `sales_0.csv` is staged, ingested into SALES_FACT and archived |
| Scenarios.SalesTwice | src/main.py:194-253 | listing `sales` twice uploads `report.csv` once: the second pass finds nothing and the file stays archived |
| Scenarios.SalesEndToEnd | src/main.py:194-253 | one pass renames `report.csv` to `sales_0.csv`, stages it from `file://./data/sales/sales_0.csv`, loads SALES_FACT through SALES_FACT__STAGING with the configured columns, and archives it under `./data/archive/sales/` |
| Scenarios.TakenNameSetUp | src/main.py:24-37 | in multi-file mode `x.csv` and `sales_0.csv` are both selected, in listing order |
| Scenarios.TakenNamePosixFirst | src/main.py:221-223 | on POSIX renaming `x.csv` onto an existing `sales_0.csv` replaces it |
| Scenarios.TakenNamePosixSecond | src/main.py:221-223 | the second iteration then moves that file on to `sales_1.csv` |
| Scenarios.TakenNameWindowsFirst | src/main.py:221-223 | on Windows the same rename fails with FileExists and nothing changes |
| Scenarios.TakenCanonicalNamePosix | src/main.py:216-253 | on POSIX the dataset ends normally with only `sales_1.csv` left and four warehouse calls |
| Scenarios.TakenCanonicalNameWindows | src/main.py:216-253 | on Windows the dataset stops at the first rename with FileExists, before any call, with the files unchanged |
| Scenarios.TakenCanonicalName | src/main.py:216-253 | with `x.csv` listed before `sales_0.csv`, POSIX loses the contents of `sales_0.csv` and uploads `x.csv` twice; Windows stops at the first rename and keeps both files |
| Scenarios.TextSetUp | src/main.py:24-37 | a `txt` dataset selects `a.txt` and not the `sales_0.csv` beside it |
| Scenarios.CollisionSetUp | src/main.py:24-37 | with an archived `sales_0.csv` left from an earlier batch, the sales dataset still selects the new `report.csv` |
| Scenarios.CollisionArchivePosix | src/main.py:244-253 | on POSIX archiving the new `sales_0.csv` replaces the archived one |
| Scenarios.ArchiveCollisionPosix | src/main.py:216-253 | on POSIX the run ends normally with only the new contents archived; the earlier batch's archived contents are lost |
| Scenarios.ArchiveCollisionWindows | src/main.py:216-253 | on Windows the run stops with FileExists for the archive path after the ingest call, and the renamed file stays in `./data/sales/` |
| Scenarios.BareSetUp | src/main.py:24-37 | with `data_dir = "sales"` the listing joins with a `/`, so `report.csv` is selected |
| Scenarios.BareDataDirFails | src/main.py:216-223 | the rename then looks for `./data/salesreport.csv` and the run stops with FileNotFound before any call, with the files unchanged |
| Scenarios.UnselectedFileReplaced | src/main.py:221-223 | renaming `a.txt` to `sales_0.csv` on POSIX replaces the unselected `sales_0.csv`, whose contents are lost, and the run ends normally after one upload |

## Left out

- The Snowflake side is not modelled:
  - the `snowsql` subprocess and the connector connection;
  - the Jinja rendering of `stage_file.sql.jinja` and `ingest_csv.sql.jinja`;
  - `num_statements=5`.
  The model records the parameter dictionaries each call renders with. The outcome of each call
  is the `accepts` answer of the `World`, one per call in call order. A failed connection, a
  non-zero `snowsql` exit and a failed statement all become that single answer.
- `load_dotenv`, `toml.load` and `getenv` are not modelled: the parsed configuration and the
  environment variables are parameters.
- `os.listdir` is the `listdir` oracle of the `World`. It gives the names a directory lists, in
  the order it lists them, or `None` when the directory does not exist. Whether a listed name is
  a regular file is read from the current files (`os.path.isfile` of the joined path). A file
  that the oracle does not list is not seen. Which directories exist is fixed for the run, so a
  directory created by `os.makedirs` does not become listable.
- FileLocator.PathJoin: the join is modelled as `posixpath.join` on both platforms, with `/` as
  the only separator. On Windows `os.path.join` is `ntpath.join`, which also treats `\` as a
  separator (and drive letters as absolute), so there a `data_dir` ending in `\` also makes the
  joined and the concatenated paths agree and the dataset works; the model does not capture that.
- `os.path.abspath` is the identity on the paths the script builds. The only exception is the
  archive directory, whose trailing separators it strips (`Pipeline.ArchiveDir`). Other path
  normalisation (repeated or interior separators, `..`) is not modelled, so two spellings of one
  file are two keys.
- Pipeline.Rename: `os.makedirs` and `os.path.exists` are not modelled, because the filesystem has
  no directories. Moving into the archive therefore never fails for a missing directory.
  Permission errors of `os.rename` are not modelled either.
- `print` output and the commented-out prompts for a year and a month are left out. The
  `custom_columns` global is `False` in the script; it is a parameter (`None` for `False`) so
  that the custom-column fragments can be stated for every value.
- `src/utils/date_data.py` is not part of this model: the script does not import it.
- PipelineProperties.CanonicalPlacement: it is stated with archiving off only. With archiving on,
  `PipelineProperties.ArchivedStep` says where one iteration leaves its file, but no lemma follows
  every file through the whole loop with archiving on.
- Python exceptions become a `Failure` value that ends the run. The run stops at the first
  failure, as an uncaught exception would.
- Missing table keys are not checked up front. `table_name`, `columns` and `skip_rows` are looked
  up only when a file is ingested (`src/main.py:236-239`). That is after its rename and its
  upload, not before any filesystem operation. The model follows the code (`Pipeline.IngestFile`)
  and reports the missing keys in that order.

=== FILE: file_locator.dfy ===
/**
 * The file-selection policy of `get_target_file`: keep the regular files of
 * a directory listing whose name ends with the extension, and refuse to
 * guess when several match and multi-file mode is off.
 */
module FileLocator {
  import opened Text

  /** One entry of `os.listdir(dir)`, with the answer of `os.path.isfile` for it. */
  datatype Entry = Entry(name: string, isFile: bool)

  /**
   * `os.path.join(dir, name)`: an absolute name replaces the directory;
   * otherwise one separator is put between them unless `dir` is empty or
   * already ends with one.
   */
  function PathJoin(dir: string, name: string): string
  {
    if |name| > 0 && name[0] == '/' then name
    else if dir == "" || dir[|dir| - 1] == '/' then dir + name
    else dir + "/" + name
  }

  /**
   * The shape of a join: an absolute name stands alone; a relative name
   * follows `dir` with at most one separator added, and a separator always
   * stands right before it when `dir` is not empty. So it is joined by
   * plain concatenation exactly when `dir` is empty or ends with a
   * separator.
   */
  lemma PathJoinShape(dir: string, name: string)
    ensures var p := PathJoin(dir, name);
            (|name| > 0 && name[0] == '/' ==> p == name) &&
            (|name| == 0 || name[0] != '/' ==>
               |dir| + |name| <= |p| <= |dir| + |name| + 1 &&
               p[..|dir|] == dir && p[|p| - |name|..] == name &&
               (dir != "" ==> p[|p| - |name| - 1] == '/') &&
               (p == dir + name <==> dir == "" || dir[|dir| - 1] == '/'))
  {
  }

  /**
   * `os.listdir(dir)` paired with `os.path.isfile(os.path.join(dir, f))`:
   * the names in listing order, each a regular file exactly when its joined
   * path is one of the regular files `paths`.
   */
  function ListEntries(dir: string, names: seq<string>, paths: set<string>): seq<Entry>
  {
    seq(|names|, j requires 0 <= j < |names| => Entry(names[j], PathJoin(dir, names[j]) in paths))
  }

  predicate IsTarget(e: Entry, ext: string)
  {
    e.isFile && EndsWith(e.name, ext)
  }

  /** The list comprehension: names of the matching regular files, in listing order. */
  function Matches(listing: seq<Entry>, ext: string): seq<string>
  {
    if listing == [] then []
    else (if IsTarget(listing[0], ext) then [listing[0].name] else []) + Matches(listing[1..], ext)
  }

  /** A name is selected exactly when some listed regular file has it and it ends with `ext`. */
  lemma {:induction false} MatchesMember(listing: seq<Entry>, ext: string, x: string)
    ensures x in Matches(listing, ext) <==>
            exists j :: 0 <= j < |listing| && listing[j].name == x && IsTarget(listing[j], ext)
  {
    if listing != [] {
      var tail := listing[1..];
      MatchesMember(tail, ext, x);
      if x in Matches(tail, ext) {
        var j :| 0 <= j < |tail| && tail[j].name == x && IsTarget(tail[j], ext);
        assert listing[j + 1] == tail[j];
      }
      if exists j :: 0 <= j < |listing| && listing[j].name == x && IsTarget(listing[j], ext) {
        var j :| 0 <= j < |listing| && listing[j].name == x && IsTarget(listing[j], ext);
        if j > 0 {
          assert tail[j - 1] == listing[j];
        }
      }
    }
  }

  /** Every selected name belongs to a matching regular file of the listing. */
  lemma MatchesSound(listing: seq<Entry>, ext: string)
    ensures forall x :: x in Matches(listing, ext) ==>
              exists j :: 0 <= j < |listing| && listing[j].name == x && IsTarget(listing[j], ext)
  {
    forall x | x in Matches(listing, ext)
      ensures exists j :: 0 <= j < |listing| && listing[j].name == x && IsTarget(listing[j], ext)
    {
      MatchesMember(listing, ext, x);
    }
  }

  /** Selection keeps listing order: selecting from a concatenation concatenates the selections. */
  lemma {:induction false} MatchesAppend(a: seq<Entry>, b: seq<Entry>, ext: string)
    ensures Matches(a + b, ext) == Matches(a, ext) + Matches(b, ext)
  {
    if a == [] {
      assert a + b == b;
    } else {
      assert (a + b)[0] == a[0];
      assert (a + b)[1..] == a[1..] + b;
      MatchesAppend(a[1..], b, ext);
    }
  }

  /** A listing without matching regular files selects nothing. */
  lemma {:induction false} MatchesNone(listing: seq<Entry>, ext: string)
    requires forall j :: 0 <= j < |listing| ==> !IsTarget(listing[j], ext)
    ensures Matches(listing, ext) == []
  {
    if listing != [] {
      assert !IsTarget(listing[0], ext);
      forall j | 0 <= j < |listing| - 1 ensures !IsTarget(listing[1..][j], ext) {
        assert listing[1..][j] == listing[j + 1];
      }
      MatchesNone(listing[1..], ext);
    }
  }

  /** `get_target_file(dir, ext, multi)` on the listing of `dir`. */
  function GetTargetFile(listing: seq<Entry>, ext: string, multi: bool): (files: seq<string>)
    ensures forall x :: x in files ==>
              exists j :: 0 <= j < |listing| && listing[j].name == x && IsTarget(listing[j], ext)
    ensures files == [] <==> Matches(listing, ext) == [] || (|Matches(listing, ext)| > 1 && !multi)
    ensures files != [] ==> files == Matches(listing, ext)
    ensures |files| > 1 ==> multi
  {
    MatchesSound(listing, ext);
    var found := Matches(listing, ext);
    if found == [] then []
    else if |found| > 1 && !multi then []
    else found
  }

  /** Exactly one matching regular file: it is returned, whatever `multi` is and whatever else is listed. */
  lemma SingleMatch(listing: seq<Entry>, ext: string, multi: bool, j: int)
    requires 0 <= j < |listing| && IsTarget(listing[j], ext)
    requires forall i :: 0 <= i < |listing| && i != j ==> !IsTarget(listing[i], ext)
    ensures GetTargetFile(listing, ext, multi) == [listing[j].name]
  {
    var before, after := listing[..j], listing[j + 1..];
    assert listing == before + [listing[j]] + after;
    forall i | 0 <= i < |before| ensures !IsTarget(before[i], ext) {
      assert before[i] == listing[i];
    }
    forall i | 0 <= i < |after| ensures !IsTarget(after[i], ext) {
      assert after[i] == listing[j + 1 + i];
    }
    MatchesNone(before, ext);
    MatchesNone(after, ext);
    MatchesAppend(before + [listing[j]], after, ext);
    MatchesAppend(before, [listing[j]], ext);
    assert Matches([listing[j]], ext) == [listing[j].name];
  }

  /**
   * Two or more matching regular files: without multi-file mode nothing is
   * returned; with it, every match is returned in listing order.
   */
  lemma SeveralMatches(listing: seq<Entry>, ext: string, i: int, j: int)
    requires 0 <= i < j < |listing| && IsTarget(listing[i], ext) && IsTarget(listing[j], ext)
    ensures GetTargetFile(listing, ext, false) == []
    ensures GetTargetFile(listing, ext, true) == Matches(listing, ext)
    ensures |GetTargetFile(listing, ext, true)| >= 2
  {
    var a, b, c := listing[..i], listing[i + 1..j], listing[j + 1..];
    assert listing == a + [listing[i]] + b + [listing[j]] + c;
    MatchesAppend(a + [listing[i]] + b + [listing[j]], c, ext);
    MatchesAppend(a + [listing[i]] + b, [listing[j]], ext);
    MatchesAppend(a + [listing[i]], b, ext);
    MatchesAppend(a, [listing[i]], ext);
    assert Matches([listing[i]], ext) == [listing[i].name];
    assert Matches([listing[j]], ext) == [listing[j].name];
  }

  /**
   * Every name `get_target_file` returns for a directory is one of its
   * names, ends with the extension, and joined to the directory is a
   * regular file.
   */
  lemma TargetsAreFiles(dir: string, names: seq<string>, paths: set<string>, ext: string, multi: bool)
    ensures forall x :: x in GetTargetFile(ListEntries(dir, names, paths), ext, multi) ==>
              x in names && EndsWith(x, ext) && PathJoin(dir, x) in paths
  {
    forall x | x in GetTargetFile(ListEntries(dir, names, paths), ext, multi)
      ensures x in names && EndsWith(x, ext) && PathJoin(dir, x) in paths
    {
      ListedMatches(dir, names, paths, ext, x);
    }
  }

  /**
   * The comprehension over a listing: a name is kept exactly when the
   * directory lists it, it ends with the extension, and joined to the
   * directory it is a regular file.
   */
  lemma ListedMatches(dir: string, names: seq<string>, paths: set<string>, ext: string, x: string)
    ensures x in Matches(ListEntries(dir, names, paths), ext) <==>
            x in names && EndsWith(x, ext) && PathJoin(dir, x) in paths
  {
    var listing := ListEntries(dir, names, paths);
    MatchesMember(listing, ext, x);
    if x in names && EndsWith(x, ext) && PathJoin(dir, x) in paths {
      var j :| 0 <= j < |names| && names[j] == x;
      assert listing[j].name == x && IsTarget(listing[j], ext);
    }
  }
}

=== FILE: ingest.dfy ===
/**
 * The SQL fragments `ingest_csv` builds from the column mapping and the
 * optional custom columns, and the parameter map it hands to the template.
 * Mappings are sequences of pairs so that their order is explicit.
 */
module Ingest {
  import opened Optional
  import opened Text
  import opened Staging

  /** One entry of the `columns` mapping: name and declared type. */
  datatype Column = Column(name: string, dtype: string)

  /** One entry of `custom_columns`: name, the rendered `value` and the declared `type`. */
  datatype CustomColumn = CustomColumn(name: string, value: string, dtype: string)

  const ListSep: string := ", "
  const DefinitionSep: string := ",\n  "

  /** `f'"{col}"'` */
  function Quote(name: string): string
  {
    "\"" + name + "\""
  }

  /** `f'"{col}" {dtype}'` */
  function Definition(name: string, dtype: string): string
  {
    Quote(name) + " " + dtype
  }

  function QuotedNames(columns: seq<Column>): seq<string>
  {
    seq(|columns|, k requires 0 <= k < |columns| => Quote(columns[k].name))
  }

  function Definitions(columns: seq<Column>): seq<string>
  {
    seq(|columns|, k requires 0 <= k < |columns| => Definition(columns[k].name, columns[k].dtype))
  }

  /** `column_list` */
  function ColumnList(columns: seq<Column>): string
  {
    Join(QuotedNames(columns), ListSep)
  }

  /** `column_definitions` */
  function ColumnDefinitions(columns: seq<Column>): string
  {
    Join(Definitions(columns), DefinitionSep)
  }

  /** Python's truth value of `custom_columns`: `False` (None here) and an empty mapping are both false. */
  predicate CustomEnabled(custom: Option<seq<CustomColumn>>)
  {
    custom.Some? && |custom.value| > 0
  }

  function CustomNames(cs: seq<CustomColumn>): seq<string>
  {
    seq(|cs|, k requires 0 <= k < |cs| => Quote(cs[k].name))
  }

  /** `f'{value} AS {x}'`: the name is NOT quoted here. */
  function ValueClause(c: CustomColumn): string
  {
    c.value + " AS " + c.name
  }

  function CustomValues(cs: seq<CustomColumn>): seq<string>
  {
    seq(|cs|, k requires 0 <= k < |cs| => ValueClause(cs[k]))
  }

  function CustomDefinitions(cs: seq<CustomColumn>): seq<string>
  {
    seq(|cs|, k requires 0 <= k < |cs| => Definition(cs[k].name, cs[k].dtype))
  }

  /** `custom_column_list` */
  function CustomColumnList(custom: Option<seq<CustomColumn>>): string
  {
    if CustomEnabled(custom) then ListSep + Join(CustomNames(custom.value), ListSep) else ""
  }

  /** `custom_column_values` */
  function CustomColumnValues(custom: Option<seq<CustomColumn>>): string
  {
    if CustomEnabled(custom) then ListSep + Join(CustomValues(custom.value), ListSep) else ""
  }

  /** `custom_column_definitions`: the leading separator is ", ", the inner ones ",\n  ". */
  function CustomColumnDefinitions(custom: Option<seq<CustomColumn>>): string
  {
    if CustomEnabled(custom) then ListSep + Join(CustomDefinitions(custom.value), DefinitionSep) else ""
  }

  /** The `params` dictionary handed to the ingestion template. */
  datatype IngestParams = IngestParams(
    fileName: string, stagingTable: string, destinationTable: string, stageName: string,
    skipRows: int, fieldDelimiter: string, encoding: string,
    columns: string, columnDefinitions: string,
    customColumnList: string, customColumnValues: string, customColumnDefinitions: string)

  /** The parameters `ingest_csv` renders its template with. */
  function BuildParams(fileName: string, destinationTable: string, columns: seq<Column>,
                       custom: Option<seq<CustomColumn>>, skipRows: int,
                       fieldDelimiter: string, encoding: string): (p: IngestParams)
    ensures p.destinationTable == destinationTable && p.fileName == fileName
    ensures p.stagingTable == destinationTable + "__STAGING" && p.stagingTable != destinationTable
    ensures p.stageName == StageName
    ensures p.skipRows == skipRows && p.fieldDelimiter == fieldDelimiter && p.encoding == encoding
  {
    IngestParams(fileName, destinationTable + "__STAGING", destinationTable, StageName,
                 skipRows, fieldDelimiter, encoding,
                 ColumnList(columns), ColumnDefinitions(columns),
                 CustomColumnList(custom), CustomColumnValues(custom), CustomColumnDefinitions(custom))
  }

  lemma ListSepSeparates(p: string)
    requires ',' !in p
    ensures Separable(p, ListSep)
  {
    assert ListSep[0] == ',';
    SeparableWithoutFirst(p, ListSep);
  }

  lemma DefinitionSepSeparates(p: string)
    requires '\n' !in p
    ensures Separable(p, DefinitionSep)
  {
    assert DefinitionSep[0] == ',' && DefinitionSep[1] == '\n';
    SeparableWithoutSecond(p, DefinitionSep);
  }

  /**
   * The column list has one entry per column, in mapping order, and entry
   * `k` is column `k`'s name in double quotes (names without commas).
   */
  lemma ColumnListEntries(columns: seq<Column>)
    requires |columns| > 0
    requires forall k :: 0 <= k < |columns| ==> ',' !in columns[k].name
    ensures var entries := Split(ColumnList(columns), ListSep);
            |entries| == |columns| &&
            forall k :: 0 <= k < |columns| ==> entries[k] == "\"" + columns[k].name + "\""
  {
    var parts := QuotedNames(columns);
    forall k | 0 <= k < |parts| ensures Separable(parts[k], ListSep) {
      ListSepSeparates(parts[k]);
    }
    SplitJoin(parts, ListSep);
  }

  /**
   * The definition list has one entry per column, in mapping order, and
   * entry `k` pairs column `k`'s quoted name with its declared type (names
   * and types without line breaks).
   */
  lemma ColumnDefinitionEntries(columns: seq<Column>)
    requires |columns| > 0
    requires forall k :: 0 <= k < |columns| ==> '\n' !in columns[k].name && '\n' !in columns[k].dtype
    ensures var entries := Split(ColumnDefinitions(columns), DefinitionSep);
            |entries| == |columns| &&
            forall k :: 0 <= k < |columns| ==> entries[k] == "\"" + columns[k].name + "\" " + columns[k].dtype
  {
    var parts := Definitions(columns);
    forall k | 0 <= k < |parts| ensures Separable(parts[k], DefinitionSep) {
      DefinitionSepSeparates(parts[k]);
    }
    SplitJoin(parts, DefinitionSep);
  }

  /** An empty column mapping gives empty lists. */
  lemma NoColumns()
    ensures ColumnList([]) == "" && ColumnDefinitions([]) == ""
  {
  }

  /**
   * Without custom columns all three custom fragments are empty. With them,
   * each fragment starts with ", " and, after that, has exactly one entry per
   * custom column in mapping order: the quoted name, `value AS name`, and
   * the quoted name with its type.
   */
  lemma CustomFragments(custom: Option<seq<CustomColumn>>)
    requires custom.Some? ==> forall k :: 0 <= k < |custom.value| ==>
               var c := custom.value[k];
               ',' !in c.name && ',' !in c.value && '\n' !in c.name && '\n' !in c.dtype
    ensures !CustomEnabled(custom) ==>
              CustomColumnList(custom) == "" && CustomColumnValues(custom) == "" &&
              CustomColumnDefinitions(custom) == ""
    ensures CustomEnabled(custom) ==>
              var cs := custom.value;
              var names, values, defs := CustomColumnList(custom), CustomColumnValues(custom), CustomColumnDefinitions(custom);
              |names| >= 2 && names[..2] == ", " &&
              |values| >= 2 && values[..2] == ", " &&
              |defs| >= 2 && defs[..2] == ", " &&
              Split(names[2..], ListSep) == CustomNames(cs) &&
              Split(values[2..], ListSep) == CustomValues(cs) &&
              Split(defs[2..], DefinitionSep) == CustomDefinitions(cs)
  {
    if CustomEnabled(custom) {
      var cs := custom.value;
      forall k | 0 <= k < |cs| ensures Separable(CustomNames(cs)[k], ListSep) {
        ListSepSeparates(CustomNames(cs)[k]);
      }
      forall k | 0 <= k < |cs| ensures Separable(CustomValues(cs)[k], ListSep) {
        ListSepSeparates(CustomValues(cs)[k]);
      }
      forall k | 0 <= k < |cs| ensures Separable(CustomDefinitions(cs)[k], DefinitionSep) {
        DefinitionSepSeparates(CustomDefinitions(cs)[k]);
      }
      SplitJoin(CustomNames(cs), ListSep);
      SplitJoin(CustomValues(cs), ListSep);
      SplitJoin(CustomDefinitions(cs), DefinitionSep);
      assert (ListSep + Join(CustomNames(cs), ListSep))[2..] == Join(CustomNames(cs), ListSep);
      assert (ListSep + Join(CustomValues(cs), ListSep))[2..] == Join(CustomValues(cs), ListSep);
      assert (ListSep + Join(CustomDefinitions(cs), DefinitionSep))[2..] == Join(CustomDefinitions(cs), DefinitionSep);
    }
  }

  /**
   * Adding one custom column extends each custom fragment by exactly one
   * comma-prefixed segment for it, leaving the existing text unchanged.
   */
  lemma AddingCustomColumn(cs: seq<CustomColumn>, c: CustomColumn)
    ensures CustomColumnList(Some(cs + [c])) == CustomColumnList(Some(cs)) + ListSep + Quote(c.name)
    ensures CustomColumnValues(Some(cs + [c])) == CustomColumnValues(Some(cs)) + ListSep + ValueClause(c)
    ensures CustomColumnDefinitions(Some(cs + [c])) ==
              CustomColumnDefinitions(Some(cs)) + (if cs == [] then ListSep else DefinitionSep) +
              Definition(c.name, c.dtype)
  {
    AddingCustomName(cs, c);
    AddingCustomValue(cs, c);
    AddingCustomDefinition(cs, c);
  }

  lemma AddingCustomName(cs: seq<CustomColumn>, c: CustomColumn)
    ensures CustomColumnList(Some(cs + [c])) == CustomColumnList(Some(cs)) + ListSep + Quote(c.name)
  {
    assert CustomNames(cs + [c]) == CustomNames(cs) + [Quote(c.name)];
    if cs != [] {
      JoinAppend(CustomNames(cs), ListSep, Quote(c.name));
    } else {
      assert CustomNames([c]) == [Quote(c.name)];
    }
  }

  lemma AddingCustomValue(cs: seq<CustomColumn>, c: CustomColumn)
    ensures CustomColumnValues(Some(cs + [c])) == CustomColumnValues(Some(cs)) + ListSep + ValueClause(c)
  {
    var v := ValueClause(c);
    assert CustomValues(cs + [c]) == CustomValues(cs) + [v];
    if cs != [] {
      JoinAppend(CustomValues(cs), ListSep, v);
    } else {
      assert CustomValues([c]) == [v];
    }
  }

  lemma AddingCustomDefinition(cs: seq<CustomColumn>, c: CustomColumn)
    ensures CustomColumnDefinitions(Some(cs + [c])) ==
              CustomColumnDefinitions(Some(cs)) + (if cs == [] then ListSep else DefinitionSep) +
              Definition(c.name, c.dtype)
  {
    var d := Definition(c.name, c.dtype);
    assert CustomDefinitions(cs + [c]) == CustomDefinitions(cs) + [d];
    if cs != [] {
      JoinAppend(CustomDefinitions(cs), DefinitionSep, d);
    } else {
      assert CustomDefinitions([c]) == [d];
    }
  }
}

=== FILE: naming.dfy ===
/**
 * Canonical file names: file number `i` of dataset `ds` is renamed to
 * `ds + "_" + str(i) + ".csv"`, whatever the configured extension is.
 */
module Naming {
  import opened Text

  /** `f"{ds}_{str(suffix)}"`, the identifier of file number `index`. */
  function TargetId(ds: string, index: nat): string
  {
    ds + "_" + DecimalString(index)
  }

  /** The canonical name of file number `index`; the extension is always `.csv`. */
  function CanonicalName(ds: string, index: nat): string
  {
    TargetId(ds, index) + ".csv"
  }

  /** `cleanse_source_file(ds, dir, filename, suffix)`: the source and destination of its rename. */
  function CleansePaths(ds: string, dir: string, filename: string, suffix: string): (string, string)
  {
    (dir + filename, dir + ds + "_" + suffix + ".csv")
  }

  /** With the file's number as suffix, the rename's destination is the canonical name in the same directory. */
  lemma CleanseGivesCanonicalName(ds: string, dir: string, filename: string, index: nat)
    ensures CleansePaths(ds, dir, filename, DecimalString(index)).0 == dir + filename
    ensures CleansePaths(ds, dir, filename, DecimalString(index)).1 == dir + CanonicalName(ds, index)
  {
  }

  /** Different files of one dataset get different canonical names. */
  lemma CanonicalNameInjective(ds: string, i: nat, j: nat)
    requires CanonicalName(ds, i) == CanonicalName(ds, j)
    ensures i == j
  {
    var a, b := DecimalString(i), DecimalString(j);
    var n := CanonicalName(ds, i);
    assert n == ds + "_" + a + ".csv";
    assert n == ds + "_" + b + ".csv";
    assert |a| == |b|;
    assert a == n[|ds| + 1..|n| - 4];
    assert b == n[|ds| + 1..|n| - 4];
    DecimalStringInjective(i, j);
  }

  /**
   * A renamed file still matches the configured extension `ext` (of at most
   * four characters) exactly when `ext` is a suffix of ".csv".
   */
  lemma CanonicalNameMatchesExtension(ds: string, index: nat, ext: string)
    requires |ext| <= 4
    ensures EndsWith(CanonicalName(ds, index), ext) <==> EndsWith(".csv", ext)
  {
    var n := CanonicalName(ds, index);
    assert n[|n| - 4..] == ".csv";
    assert n[|n| - |ext|..] == ".csv"[4 - |ext|..];
  }
}

=== FILE: optional.dfy ===
/** An optional value: a TOML key or an environment variable that may be absent. */
module Optional {

  datatype Option<T> = None | Some(value: T) {

    /** The value if present, otherwise `default` (Python's `d[k] if k in d else default`). */
    function GetOr(default: T): T
    {
      match this
      case Some(v) => v
      case None => default
    }
  }
}

=== FILE: pipeline.dfy ===
/**
 * The top-level loop of the script: for every configured dataset, select
 * its files, then for file number `i` rename it to its canonical name,
 * stage it, ingest it (for the "csv" extension) and archive it (when
 * ARCHIVE_FILES is "true"). The first failure ends the whole run.
 *
 * The filesystem is a map from path to the identity of the file's
 * contents; paths are the strings the program builds. Which directories
 * exist, the order in which they list their names, and the warehouse's
 * answers come from a `World` the program cannot see.
 */
module Pipeline {
  import opened Optional
  import opened Text
  import opened FileLocator
  import opened Naming
  import opened Staging
  import opened Ingest

  /** The `[table.<ds>]` section of the configuration; any key may be missing. */
  datatype TableConfig = TableConfig(
    fileExt: Option<string>, dataDir: Option<string>, tableName: Option<string>,
    columns: Option<seq<Column>>, skipRows: Option<int>,
    fieldDelimiter: Option<string>, encoding: Option<string>)

  /** The environment variables the loop and `stage` read. */
  datatype Env = Env(multiFiles: Option<string>, archiveFiles: Option<string>, stage: StageEnv)

  /** `getenv(name) == "true"`: only that exact text switches a flag on. */
  predicate EnvFlag(value: Option<string>)
  {
    value == Some("true")
  }

  /** `os.rename` replaces an existing destination on POSIX and refuses it on Windows. */
  datatype Platform = Posix | Windows

  /**
   * What the program observes but does not decide. `listdir(dir)` is `None`
   * when `dir` does not exist; otherwise it holds, in the order `os.listdir`
   * gives them, the names the directory can hold during the run. Which of
   * them are regular files at a given moment is read from the filesystem.
   * `accepts(n)` says whether the warehouse accepts the n-th external call of
   * the run (an upload or an ingestion).
   */
  datatype World = World(platform: Platform, listdir: string -> Option<seq<string>>, accepts: nat -> bool)

  /** The exceptions that end a run. */
  datatype Failure =
    | MissingKey(key: string)      // KeyError on the configuration
    | FileNotFound(path: string)   // os.rename without a source
    | FileExists(path: string)     // os.rename onto an existing file (Windows)
    | StageFailed(path: string)    // snowsql exited non-zero
    | IngestFailed(table: string)  // the warehouse rejected the statements

  datatype Result<T> = Ok(value: T) | Err(failure: Failure)

  /** An external call the run makes, with the parameters its template receives. */
  datatype Call = StageCall(stage: StageParams) | IngestCall(ingest: IngestParams)

  type Files = map<string, nat>

  /** `os.rename(src, dst)` on the filesystem `files`. */
  function Rename(platform: Platform, files: Files, src: string, dst: string): (r: Result<Files>)
    ensures r.Ok? <==> src in files && (platform.Posix? || dst !in files)
    ensures src !in files ==> r == Err(FileNotFound(src))
    ensures src in files && platform.Windows? && dst in files ==> r == Err(FileExists(dst))
    ensures r.Ok? ==> r.value.Keys == files.Keys - {src} + {dst} && r.value[dst] == files[src]
    ensures r.Ok? ==> forall p :: p in files && p != src && p != dst ==> p in r.value && r.value[p] == files[p]
  {
    if src !in files then Err(FileNotFound(src))
    else if platform.Windows? && dst in files then Err(FileExists(dst))
    else Ok((files - {src})[dst := files[src]])
  }

  /** What the loop derives for one dataset before touching any file. */
  datatype Dataset = Dataset(name: string, table: TableConfig, ext: string, dataDir: string,
                             relPath: string, targets: seq<string>,
                             delimiter: string, encoding: string)

  /**
   * The archive directory of the loop: `abspath(f"./data/archive/{data_dir}/")`
   * drops the trailing separators and `os.path.join` puts exactly one back
   * before the file name, so archived files land under
   * `./data/archive/<data_dir>/`.
   */
  function ArchiveDir(dataDir: string): string
  {
    TrimTrailing("./data/archive/" + dataDir + "/", '/') + "/"
  }

  /**
   * The archive directory of `data_dir` is `./data/archive/` followed by
   * `data_dir` without its trailing separators and one separator, or just
   * `./data/archive/` when nothing is left; it ends with exactly one
   * separator.
   */
  lemma ArchiveDirectory(dataDir: string)
    ensures var dir, t := ArchiveDir(dataDir), TrimTrailing(dataDir, '/');
            dir == "./data/archive/" + t + (if t == "" then "" else "/") &&
            |dir| >= 2 && dir[|dir| - 1] == '/' && dir[|dir| - 2] != '/'
  {
    var t := TrimTrailing(dataDir, '/');
    if t == "" {
      ArchiveDirBare(dataDir);
      ArchiveBase();
      assert "./data/archive/" + t == "./data/archive/";
    } else {
      ArchiveDirNamed(dataDir);
      SeparatorAfter("./data/archive/", t);
    }
  }

  /** Appending one separator to a non-empty `prefix + t` puts the last character of `t` just before it. */
  lemma SeparatorAfter(prefix: string, t: string)
    requires t != ""
    ensures var p := prefix + t + "/";
            |p| >= 2 && p[|p| - 1] == '/' && p[|p| - 2] == t[|t| - 1]
  {
  }

  lemma ArchiveDirBare(dataDir: string)
    requires TrimTrailing(dataDir, '/') == ""
    ensures ArchiveDir(dataDir) == "./data/archive/"
  {
    ArchiveTrim(dataDir);
    ArchiveBase();
  }

  lemma ArchiveDirNamed(dataDir: string)
    requires TrimTrailing(dataDir, '/') != ""
    ensures ArchiveDir(dataDir) == "./data/archive/" + TrimTrailing(dataDir, '/') + "/"
  {
    ArchiveTrim(dataDir);
  }

  /** The facts about the literal archive root that the archive paths use. */
  lemma ArchiveBase()
    ensures var base := "./data/archive/";
            |base| == 15 && base[13] == 'e' && base[14] == '/' &&
            base[..14] == "./data/archive" && "./data/archive" + "/" == base
  {
  }

  /** The trimmed archive path: `./data/archive` followed by `/` and the trimmed `data_dir`, if any. */
  lemma ArchiveTrim(dataDir: string)
    ensures var t, full := TrimTrailing(dataDir, '/'), "./data/archive/" + dataDir + "/";
            TrimTrailing(full, '/') == (if t == "" then "./data/archive" else "./data/archive/" + t)
  {
    var base, t := "./data/archive/", TrimTrailing(dataDir, '/');
    var full := base + dataDir + "/";
    ArchiveBase();
    if t == "" {
      var r := base[..14];
      forall i | 14 <= i < |full| ensures full[i] == '/' {
        if 15 <= i < 15 + |dataDir| {
          assert full[i] == dataDir[i - 15];
        }
      }
      TrimTrailingUnique(full, '/', r);
    } else {
      var r := base + t;
      assert r == full[..|r|];
      forall i | |r| <= i < |full| ensures full[i] == '/' {
        if i < 15 + |dataDir| {
          assert full[i] == dataDir[i - 15];
        }
      }
      TrimTrailingUnique(full, '/', r);
    }
  }

  /**
   * What the loop does for a dataset before its files: look up `file_ext`
   * and `data_dir`, list `./data/<data_dir>` as it is on the filesystem
   * `files`, select the files, and default the delimiter to ',' and the
   * encoding to "UTF-8". A missing directory makes `os.listdir` raise
   * FileNotFoundError.
   */
  function SetUp(w: World, env: Env, tables: map<string, TableConfig>, ds: string, files: Files): (r: Result<Dataset>)
    ensures r.Ok? <==> ds in tables && tables[ds].fileExt.Some? && tables[ds].dataDir.Some? &&
                       w.listdir("./data/" + tables[ds].dataDir.value).Some?
    ensures ds !in tables ==> r == Err(MissingKey(ds))
    ensures ds in tables && tables[ds].fileExt.None? ==> r == Err(MissingKey("file_ext"))
    ensures ds in tables && tables[ds].fileExt.Some? && tables[ds].dataDir.None? ==> r == Err(MissingKey("data_dir"))
    ensures ds in tables && tables[ds].fileExt.Some? && tables[ds].dataDir.Some? &&
            w.listdir("./data/" + tables[ds].dataDir.value).None? ==>
              r == Err(FileNotFound("./data/" + tables[ds].dataDir.value))
    ensures r.Err? ==>
              r.failure.MissingKey? ||
              (ds in tables && tables[ds].fileExt.Some? && tables[ds].dataDir.Some? &&
               r.failure == FileNotFound("./data/" + tables[ds].dataDir.value))
    ensures r.Ok? ==>
              var t, d := tables[ds], r.value;
              d.name == ds && d.table == t && d.ext == t.fileExt.value && d.dataDir == t.dataDir.value &&
              d.relPath == "./data/" + t.dataDir.value &&
              d.targets == GetTargetFile(ListEntries(d.relPath, w.listdir(d.relPath).value, files.Keys),
                                         d.ext, EnvFlag(env.multiFiles)) &&
              d.delimiter == (if t.fieldDelimiter.Some? then t.fieldDelimiter.value else ",") &&
              d.encoding == (if t.encoding.Some? then t.encoding.value else "UTF-8")
  {
    if ds !in tables then Err(MissingKey(ds))
    else
      var t := tables[ds];
      if t.fileExt.None? then Err(MissingKey("file_ext"))
      else if t.dataDir.None? then Err(MissingKey("data_dir"))
      else
        var relPath := "./data/" + t.dataDir.value;
        match w.listdir(relPath)
        case None => Err(FileNotFound(relPath))
        case Some(names) =>
          var targets := GetTargetFile(ListEntries(relPath, names, files.Keys), t.fileExt.value,
                                       EnvFlag(env.multiFiles));
          Ok(Dataset(ds, t, t.fileExt.value, t.dataDir.value, relPath, targets,
                     t.fieldDelimiter.GetOr(","), t.encoding.GetOr("UTF-8")))
  }

  /** The filesystem, the external calls made so far, and the failure that ended the run, if any. */
  datatype State = State(files: Files, log: seq<Call>, failure: Option<Failure>)

  function Halt(s: State, f: Failure): State
  {
    s.(failure := Some(f))
  }

  /** For a csv dataset: look up `table_name`, `columns` and `skip_rows`, then `ingest_csv` the staged file. */
  function IngestFile(w: World, custom: Option<seq<CustomColumn>>, d: Dataset, s: State, target: string): State
  {
    var t := d.table;
    if t.tableName.None? then Halt(s, MissingKey("table_name"))
    else if t.columns.None? then Halt(s, MissingKey("columns"))
    else if t.skipRows.None? then Halt(s, MissingKey("skip_rows"))
    else
      var p := BuildParams(target, t.tableName.value, t.columns.value, custom,
                           t.skipRows.value, d.delimiter, d.encoding);
      var called := s.(log := s.log + [IngestCall(p)]);
      if w.accepts(|s.log|) then called else Halt(called, IngestFailed(t.tableName.value))
  }

  /** The loop body after the rename: stage the file `target` of the dataset directory, ingest, archive. */
  function UploadFile(w: World, env: Env, custom: Option<seq<CustomColumn>>, d: Dataset, s: State, target: string): State
  {
    var path := ForwardSlashes(d.relPath + target);
    var staged := s.(log := s.log + [StageCall(BuildStageParams(env.stage, path))]);
    if !w.accepts(|s.log|) then Halt(staged, StageFailed(path))
    else
      var ingested := if d.ext == "csv" then IngestFile(w, custom, d, staged, target) else staged;
      if ingested.failure.Some? || !EnvFlag(env.archiveFiles) then ingested
      else
        match Rename(w.platform, ingested.files, d.relPath + target, ArchiveDir(d.dataDir) + target)
        case Err(f) => Halt(ingested, f)
        case Ok(files) => ingested.(files := files)
  }

  /** One iteration of the file loop, for file number `k`: cleanse its name, then upload it. */
  function ProcessFile(w: World, env: Env, custom: Option<seq<CustomColumn>>, d: Dataset, s: State, k: nat): State
    requires k < |d.targets|
  {
    var canonical := CanonicalName(d.name, k);
    if d.targets[k] != canonical then
      var (src, dst) := CleansePaths(d.name, d.relPath, d.targets[k], DecimalString(k));
      match Rename(w.platform, s.files, src, dst)
      case Err(f) => Halt(s, f)
      case Ok(files) => UploadFile(w, env, custom, d, s.(files := files), canonical)
    else
      UploadFile(w, env, custom, d, s, canonical)
  }

  /** The state after the first `n` iterations of the file loop, stopping at the first failure. */
  function RunFiles(w: World, env: Env, custom: Option<seq<CustomColumn>>, d: Dataset, s0: State, n: nat): State
    requires n <= |d.targets|
  {
    if n == 0 then s0
    else
      var s := RunFiles(w, env, custom, d, s0, n - 1);
      if s.failure.Some? then s else ProcessFile(w, env, custom, d, s, n - 1)
  }

  /** One dataset: set-up, then the file loop over the selected files. */
  function RunDataset(w: World, env: Env, custom: Option<seq<CustomColumn>>,
                      tables: map<string, TableConfig>, ds: string, s: State): State
  {
    match SetUp(w, env, tables, ds, s.files)
    case Err(f) => Halt(s, f)
    case Ok(d) => RunFiles(w, env, custom, d, s, |d.targets|)
  }

  /** The state after the first `n` datasets, stopping at the first failure. */
  function RunAll(w: World, env: Env, custom: Option<seq<CustomColumn>>,
                  tables: map<string, TableConfig>, datasets: seq<string>, s0: State, n: nat): State
    requires n <= |datasets|
  {
    if n == 0 then s0
    else
      var s := RunAll(w, env, custom, tables, datasets, s0, n - 1);
      if s.failure.Some? then s else RunDataset(w, env, custom, tables, datasets[n - 1], s)
  }

  /** While no file has failed, the loop goes on with the next file. */
  lemma RunFilesNext(w: World, env: Env, custom: Option<seq<CustomColumn>>, d: Dataset, s0: State, k: nat)
    requires k < |d.targets| && RunFiles(w, env, custom, d, s0, k).failure.None?
    ensures RunFiles(w, env, custom, d, s0, k + 1) == ProcessFile(w, env, custom, d, RunFiles(w, env, custom, d, s0, k), k)
  {
  }

  /** While no dataset has failed, the run goes on with the next dataset. */
  lemma RunAllNext(w: World, env: Env, custom: Option<seq<CustomColumn>>,
                   tables: map<string, TableConfig>, datasets: seq<string>, s0: State, i: nat)
    requires i < |datasets| && RunAll(w, env, custom, tables, datasets, s0, i).failure.None?
    ensures RunAll(w, env, custom, tables, datasets, s0, i + 1) ==
            RunDataset(w, env, custom, tables, datasets[i], RunAll(w, env, custom, tables, datasets, s0, i))
  {
  }

  /** Once a file fails, the later files are never touched. */
  lemma {:induction false} RunFilesHalted(w: World, env: Env, custom: Option<seq<CustomColumn>>,
                                          d: Dataset, s0: State, k: nat, n: nat)
    requires k <= n <= |d.targets|
    requires RunFiles(w, env, custom, d, s0, k).failure.Some?
    ensures RunFiles(w, env, custom, d, s0, n) == RunFiles(w, env, custom, d, s0, k)
  {
    if n > k {
      RunFilesHalted(w, env, custom, d, s0, k, n - 1);
    }
  }

  /** Once a dataset fails, the later datasets are never touched. */
  lemma {:induction false} RunAllHalted(w: World, env: Env, custom: Option<seq<CustomColumn>>,
                                        tables: map<string, TableConfig>, datasets: seq<string>,
                                        s0: State, k: nat, n: nat)
    requires k <= n <= |datasets|
    requires RunAll(w, env, custom, tables, datasets, s0, k).failure.Some?
    ensures RunAll(w, env, custom, tables, datasets, s0, n) == RunAll(w, env, custom, tables, datasets, s0, k)
  {
    if n > k {
      RunAllHalted(w, env, custom, tables, datasets, s0, k, n - 1);
    }
  }

  /** The working state of the script: the filesystem and the external calls made so far. */
  class Workspace {
    var files: Files
    var log: seq<Call>

    constructor (files: Files)
      ensures this.files == files && log == []
    {
      this.files := files;
      log := [];
    }

    /** `os.rename(src, dst)`. */
    method RenameFile(platform: Platform, src: string, dst: string) returns (failure: Option<Failure>)
      modifies this
      ensures log == old(log)
      ensures match Rename(platform, old(files), src, dst)
              case Ok(fs) => files == fs && failure == None
              case Err(f) => files == old(files) && failure == Some(f)
    {
      if src !in files {
        return Some(FileNotFound(src));
      }
      if platform.Windows? && dst in files {
        return Some(FileExists(dst));
      }
      var contents := files[src];
      files := files - {src};
      files := files[dst := contents];
      failure := None;
    }

    /** `cleanse_source_file(ds, dir, filename, suffix)`. */
    method CleanseSourceFile(platform: Platform, ds: string, dir: string, filename: string, suffix: string)
      returns (failure: Option<Failure>)
      modifies this
      ensures log == old(log)
      ensures match Rename(platform, old(files), dir + filename, dir + ds + "_" + suffix + ".csv")
              case Ok(fs) => files == fs && failure == None
              case Err(f) => files == old(files) && failure == Some(f)
    {
      var src := dir + filename;
      var dst := dir + ds + "_" + suffix + ".csv";
      failure := RenameFile(platform, src, dst);
    }

    /** `stage(file_path)`: one external call; true when the client exits with status 0. */
    method Stage(w: World, env: StageEnv, filePath: string) returns (ok: bool)
      modifies this
      ensures files == old(files)
      ensures log == old(log) + [StageCall(BuildStageParams(env, filePath))]
      ensures ok == w.accepts(|old(log)|)
    {
      ok := w.accepts(|log|);
      log := log + [StageCall(BuildStageParams(env, filePath))];
    }

    /** `ingest_csv(...)`: one external call; true when the statements executed. */
    method IngestCsv(w: World, fileName: string, destinationTable: string, columns: seq<Column>,
                     custom: Option<seq<CustomColumn>>, skipRows: int,
                     fieldDelimiter: string, encoding: string) returns (ok: bool)
      modifies this
      ensures files == old(files)
      ensures log == old(log) + [IngestCall(BuildParams(fileName, destinationTable, columns, custom,
                                                        skipRows, fieldDelimiter, encoding))]
      ensures ok == w.accepts(|old(log)|)
    {
      var params := BuildParams(fileName, destinationTable, columns, custom, skipRows, fieldDelimiter, encoding);
      ok := w.accepts(|log|);
      log := log + [IngestCall(params)];
    }

    /** The body of the file loop for file number `suffix`. */
    method ProcessFileAt(w: World, env: Env, custom: Option<seq<CustomColumn>>, d: Dataset, suffix: nat)
      returns (failure: Option<Failure>)
      requires suffix < |d.targets|
      modifies this
      ensures State(files, log, failure) == ProcessFile(w, env, custom, d, State(old(files), old(log), None), suffix)
    {
      var targetFile := d.targets[suffix];
      var targetId := d.name + "_" + DecimalString(suffix);
      if targetFile != targetId + ".csv" {
        failure := CleanseSourceFile(w.platform, d.name, d.relPath, targetFile, DecimalString(suffix));
        if failure.Some? {
          return;
        }
        targetFile := targetId + ".csv";
      }
      var filePath := ForwardSlashes(d.relPath + targetFile);
      var staged := Stage(w, env.stage, filePath);
      if !staged {
        return Some(StageFailed(filePath));
      }
      if d.ext == "csv" {
        var t := d.table;
        if t.tableName.None? {
          return Some(MissingKey("table_name"));
        }
        if t.columns.None? {
          return Some(MissingKey("columns"));
        }
        if t.skipRows.None? {
          return Some(MissingKey("skip_rows"));
        }
        var ingested := IngestCsv(w, targetFile, t.tableName.value, t.columns.value, custom,
                                  t.skipRows.value, d.delimiter, d.encoding);
        if !ingested {
          return Some(IngestFailed(t.tableName.value));
        }
      }
      if EnvFlag(env.archiveFiles) {
        failure := RenameFile(w.platform, d.relPath + targetFile, ArchiveDir(d.dataDir) + targetFile);
        if failure.Some? {
          return;
        }
      }
      failure := None;
    }

    /** File number `suffix` of the dataset, processed after the first `suffix` left no failure. */
    method ProcessNextFile(w: World, env: Env, custom: Option<seq<CustomColumn>>, d: Dataset, suffix: nat,
                           ghost s0: State)
      returns (failure: Option<Failure>)
      requires suffix < |d.targets| && State(files, log, None) == RunFiles(w, env, custom, d, s0, suffix)
      modifies this
      ensures State(files, log, failure) == RunFiles(w, env, custom, d, s0, suffix + 1)
    {
      RunFilesNext(w, env, custom, d, s0, suffix);
      failure := ProcessFileAt(w, env, custom, d, suffix);
    }

    /** The loop over `enumerate(target_files)`, until a file fails. */
    method ProcessFiles(w: World, env: Env, custom: Option<seq<CustomColumn>>, d: Dataset)
      returns (failure: Option<Failure>)
      modifies this
      ensures State(files, log, failure) == RunFiles(w, env, custom, d, State(old(files), old(log), None), |d.targets|)
    {
      ghost var s0 := State(files, log, None);
      failure := None;
      var suffix := 0;
      while suffix < |d.targets| && failure.None?
        invariant suffix <= |d.targets|
        invariant State(files, log, failure) == RunFiles(w, env, custom, d, s0, suffix)
      {
        failure := ProcessNextFile(w, env, custom, d, suffix, s0);
        suffix := suffix + 1;
      }
      if failure.Some? {
        RunFilesHalted(w, env, custom, d, s0, suffix, |d.targets|);
      }
    }

    /** One dataset: set up, then the file loop. */
    method ProcessDataset(w: World, env: Env, custom: Option<seq<CustomColumn>>,
                          tables: map<string, TableConfig>, ds: string)
      returns (failure: Option<Failure>)
      modifies this
      ensures State(files, log, failure) == RunDataset(w, env, custom, tables, ds, State(old(files), old(log), None))
    {
      var setup := SetUp(w, env, tables, ds, files);
      if setup.Err? {
        return Some(setup.failure);
      }
      failure := ProcessFiles(w, env, custom, setup.value);
    }

    /** Dataset number `i` of the run, processed after the first `i` left no failure. */
    method ProcessNext(w: World, env: Env, custom: Option<seq<CustomColumn>>,
                       tables: map<string, TableConfig>, datasets: seq<string>, i: nat, ghost s0: State)
      returns (failure: Option<Failure>)
      requires i < |datasets| && State(files, log, None) == RunAll(w, env, custom, tables, datasets, s0, i)
      modifies this
      ensures State(files, log, failure) == RunAll(w, env, custom, tables, datasets, s0, i + 1)
    {
      RunAllNext(w, env, custom, tables, datasets, s0, i);
      failure := ProcessDataset(w, env, custom, tables, datasets[i]);
    }

    /** `for ds in datasets`: every dataset in turn, until one fails. */
    method Run(w: World, env: Env, custom: Option<seq<CustomColumn>>,
               tables: map<string, TableConfig>, datasets: seq<string>)
      returns (failure: Option<Failure>)
      modifies this
      ensures State(files, log, failure) == RunAll(w, env, custom, tables, datasets, State(old(files), old(log), None), |datasets|)
    {
      ghost var s0 := State(files, log, None);
      failure := None;
      var i := 0;
      while i < |datasets| && failure.None?
        invariant i <= |datasets|
        invariant State(files, log, failure) == RunAll(w, env, custom, tables, datasets, s0, i)
      {
        failure := ProcessNext(w, env, custom, tables, datasets, i, s0);
        i := i + 1;
      }
      if failure.Some? {
        RunAllHalted(w, env, custom, tables, datasets, s0, i, |datasets|);
      }
    }
  }
}

=== FILE: pipeline_properties.dfy ===
/**
 * What the loop of the script guarantees: where each file ends up, that the
 * calls it makes carry the configured settings, and what happens to other
 * files when a canonical name is already taken.
 */
module PipelineProperties {
  import opened Optional
  import opened Text
  import opened FileLocator
  import opened Naming
  import opened Staging
  import opened Ingest
  import opened Pipeline

  /** Without archiving, uploading a file leaves the filesystem as it was. */
  lemma UploadKeepsFiles(w: World, env: Env, custom: Option<seq<CustomColumn>>, d: Dataset, s: State, target: string)
    requires !EnvFlag(env.archiveFiles)
    ensures UploadFile(w, env, custom, d, s, target).files == s.files
  {
  }

  /**
   * Without archiving, a successful iteration for file `k` either leaves the
   * filesystem alone (the file already has its canonical name) or is exactly
   * the rename of the file to its canonical name in the same directory.
   */
  lemma ProcessFileMoves(w: World, env: Env, custom: Option<seq<CustomColumn>>, d: Dataset, s: State, k: nat)
    requires k < |d.targets| && !EnvFlag(env.archiveFiles)
    requires ProcessFile(w, env, custom, d, s, k).failure.None?
    ensures var r := ProcessFile(w, env, custom, d, s, k);
            var canonical := CanonicalName(d.name, k);
            (d.targets[k] == canonical ==> r.files == s.files) &&
            (d.targets[k] != canonical ==>
               Rename(w.platform, s.files, d.relPath + d.targets[k], d.relPath + canonical) == Ok(r.files))
  {
    var canonical := CanonicalName(d.name, k);
    CleanseGivesCanonicalName(d.name, d.relPath, d.targets[k], k);
    if d.targets[k] == canonical {
      UploadKeepsFiles(w, env, custom, d, s, canonical);
    } else {
      var moved := Rename(w.platform, s.files, d.relPath + d.targets[k], d.relPath + canonical);
      if moved.Ok? {
        UploadKeepsFiles(w, env, custom, d, s.(files := moved.value), canonical);
      }
    }
  }

  /** Distinct file names in the listing. */
  predicate DistinctTargets(d: Dataset)
  {
    forall i, j :: 0 <= i < j < |d.targets| ==> d.targets[i] != d.targets[j]
  }

  /** No file still waiting in the loop already carries the canonical name of an earlier file. */
  predicate NoLaterFileHasEarlierName(d: Dataset)
  {
    forall k, j :: 0 <= k < j < |d.targets| ==> d.targets[j] != CanonicalName(d.name, k)
  }

  /** Path `p` is neither the source nor the destination of the renames of the first `n` files. */
  predicate Untouched(d: Dataset, p: string, n: nat)
    requires n <= |d.targets|
  {
    forall k :: 0 <= k < n ==> p != d.relPath + d.targets[k] && p != d.relPath + CanonicalName(d.name, k)
  }

  /**
   * After the renames of the first `n` files, every path that no rename
   * involved keeps its contents, and the only new paths are canonical ones.
   */
  predicate FramedUpTo(d: Dataset, original: Files, files: Files, n: nat)
    requires n <= |d.targets|
  {
    (forall p :: p in original && Untouched(d, p, n) ==> p in files && files[p] == original[p]) &&
    (forall p :: p in files ==> p in original || exists k :: 0 <= k < n && p == d.relPath + CanonicalName(d.name, k))
  }

  /** Renaming file `k` (or keeping it, when its name is canonical) extends the frame by one file. */
  lemma FrameStep(d: Dataset, original: Files, files: Files, moved: Files, k: nat)
    requires k < |d.targets| && FramedUpTo(d, original, files, k)
    requires var canonical := CanonicalName(d.name, k);
             if d.targets[k] == canonical then moved == files
             else exists p: Platform :: Rename(p, files, d.relPath + d.targets[k], d.relPath + canonical) == Ok(moved)
    ensures FramedUpTo(d, original, moved, k + 1)
  {
    var rel, t, canonical := d.relPath, d.targets[k], CanonicalName(d.name, k);
    forall p | p in original && Untouched(d, p, k + 1)
      ensures p in moved && moved[p] == original[p]
    {
      assert Untouched(d, p, k);
      assert p != rel + t && p != rel + canonical;
    }
    forall p | p in moved
      ensures p in original || exists i :: 0 <= i < k + 1 && p == rel + CanonicalName(d.name, i)
    {
      if p != rel + canonical {
        assert p in files;
      }
    }
  }

  /**
   * The filesystem as far as the loop has come: `n` files renamed to their
   * canonical names, the selected files not yet reached untouched, every
   * other path that no rename involved unchanged, and no path new except the
   * canonical ones.
   */
  predicate PlacedUpTo(d: Dataset, original: Files, files: Files, n: nat)
    requires n <= |d.targets|
    requires forall j :: 0 <= j < |d.targets| ==> d.relPath + d.targets[j] in original
  {
    (forall k :: 0 <= k < n ==>
       d.relPath + CanonicalName(d.name, k) in files &&
       files[d.relPath + CanonicalName(d.name, k)] == original[d.relPath + d.targets[k]]) &&
    (forall j :: n <= j < |d.targets| ==>
       d.relPath + d.targets[j] in files &&
       files[d.relPath + d.targets[j]] == original[d.relPath + d.targets[j]]) &&
    FramedUpTo(d, original, files, n)
  }

  /** Renaming file `k` to its canonical name extends the placement by one file. */
  lemma PlacementStep(d: Dataset, original: Files, files: Files, moved: Files, k: nat)
    requires k < |d.targets| && DistinctTargets(d) && NoLaterFileHasEarlierName(d)
    requires forall j :: 0 <= j < |d.targets| ==> d.relPath + d.targets[j] in original
    requires PlacedUpTo(d, original, files, k)
    requires var canonical := CanonicalName(d.name, k);
             if d.targets[k] == canonical then moved == files
             else exists p: Platform :: Rename(p, files, d.relPath + d.targets[k], d.relPath + canonical) == Ok(moved)
    ensures PlacedUpTo(d, original, moved, k + 1)
  {
    var rel, t, canonical := d.relPath, d.targets[k], CanonicalName(d.name, k);
    if t != canonical {
      var p: Platform :| Rename(p, files, rel + t, rel + canonical) == Ok(moved);
      forall i | 0 <= i < k
        ensures rel + CanonicalName(d.name, i) in moved
        ensures moved[rel + CanonicalName(d.name, i)] == original[rel + d.targets[i]]
      {
        PrefixCancel(rel, CanonicalName(d.name, i), t);
        PrefixCancel(rel, CanonicalName(d.name, i), canonical);
        if CanonicalName(d.name, i) == canonical {
          CanonicalNameInjective(d.name, i, k);
        }
      }
      forall j | k + 1 <= j < |d.targets|
        ensures rel + d.targets[j] in moved
        ensures moved[rel + d.targets[j]] == original[rel + d.targets[j]]
      {
        PrefixCancel(rel, d.targets[j], t);
        PrefixCancel(rel, d.targets[j], canonical);
      }
    }
    FrameStep(d, original, files, moved, k);
  }

  /**
   * Canonical naming. Without archiving, after `n` successful iterations,
   * file number `k < n` holds the original contents of the `k`-th selected
   * file under the name `ds + "_" + k + ".csv"`, and the files not yet
   * reached are untouched, provided no later file already carries the
   * canonical name of an earlier one. Every other path keeps its contents,
   * except one that happens to be a canonical path: a file left under
   * `<ds>_<k>.csv` but not selected is replaced on POSIX.
   */
  lemma {:induction false} CanonicalPlacement(w: World, env: Env, custom: Option<seq<CustomColumn>>,
                                              d: Dataset, s0: State, n: nat)
    requires n <= |d.targets| && !EnvFlag(env.archiveFiles)
    requires DistinctTargets(d) && NoLaterFileHasEarlierName(d)
    requires forall j :: 0 <= j < |d.targets| ==> d.relPath + d.targets[j] in s0.files
    requires RunFiles(w, env, custom, d, s0, n).failure.None?
    ensures PlacedUpTo(d, s0.files, RunFiles(w, env, custom, d, s0, n).files, n)
  {
    if n > 0 {
      var k := n - 1;
      var s := RunFiles(w, env, custom, d, s0, k);
      assert s.failure.None?;
      CanonicalPlacement(w, env, custom, d, s0, k);
      var r := ProcessFile(w, env, custom, d, s, k);
      RunFilesNext(w, env, custom, d, s0, k);
      ProcessFileMoves(w, env, custom, d, s, k);
      PlacementStep(d, s0.files, s.files, r.files, k);
    }
  }

  /** A file that already carries its canonical name is not renamed. */
  lemma CanonicalFileKept(w: World, env: Env, custom: Option<seq<CustomColumn>>, d: Dataset, s: State, k: nat)
    requires k < |d.targets| && !EnvFlag(env.archiveFiles) && d.targets[k] == CanonicalName(d.name, k)
    ensures ProcessFile(w, env, custom, d, s, k).files == s.files
  {
    UploadKeepsFiles(w, env, custom, d, s, CanonicalName(d.name, k));
  }

  /**
   * Re-running on files that already carry their canonical names, in order,
   * renames nothing: without archiving the filesystem is unchanged, whatever
   * the warehouse answers.
   */
  lemma {:induction false} CanonicalNamesAreKept(w: World, env: Env, custom: Option<seq<CustomColumn>>,
                                                 d: Dataset, s0: State, n: nat)
    requires n <= |d.targets| && !EnvFlag(env.archiveFiles)
    requires forall k :: 0 <= k < |d.targets| ==> d.targets[k] == CanonicalName(d.name, k)
    ensures RunFiles(w, env, custom, d, s0, n).files == s0.files
  {
    if n > 0 {
      CanonicalNamesAreKept(w, env, custom, d, s0, n - 1);
      var s := RunFiles(w, env, custom, d, s0, n - 1);
      if s.failure.None? {
        RunFilesNext(w, env, custom, d, s0, n - 1);
        CanonicalFileKept(w, env, custom, d, s, n - 1);
      }
    }
  }

  /** A rename that refuses an existing destination keeps every content and the number of files. */
  lemma RenameWithoutReplacing(files: Files, src: string, dst: string)
    requires Rename(Windows, files, src, dst).Ok?
    ensures var moved := Rename(Windows, files, src, dst).value;
            moved.Values == files.Values && |moved| == |files|
  {
    var moved := Rename(Windows, files, src, dst).value;
    forall v | v in files.Values ensures v in moved.Values {
      var p :| p in files && files[p] == v;
      if p == src {
        assert moved[dst] == v;
      } else {
        assert moved[p] == v;
      }
    }
    forall v | v in moved.Values ensures v in files.Values {
      var p :| p in moved && moved[p] == v;
      if p == dst {
        assert files[src] == v;
      } else {
        assert files[p] == v;
      }
    }
    assert moved.Keys == files.Keys - {src} + {dst};
    assert |files.Keys - {src}| == |files.Keys| - 1;
    assert |moved.Keys| == |files.Keys|;
  }

  /** Ingesting never touches the filesystem. */
  lemma IngestKeepsFiles(w: World, custom: Option<seq<CustomColumn>>, d: Dataset, s: State, target: string)
    ensures IngestFile(w, custom, d, s, target).files == s.files
  {
  }

  /**
   * Uploading a file touches the filesystem at most once: the files stay as
   * they were, or, only with archiving on and after the upload and (for csv)
   * the ingestion were accepted, they are exactly the move of the file into
   * the archive directory.
   */
  lemma UploadMovesOnlyToArchive(w: World, env: Env, custom: Option<seq<CustomColumn>>, d: Dataset, s: State,
                                 target: string)
    ensures var r := UploadFile(w, env, custom, d, s, target);
            r.files != s.files ==>
              EnvFlag(env.archiveFiles) && s.failure.None? && r.failure.None? && w.accepts(|s.log|) &&
              (d.ext == "csv" ==>
                 d.table.tableName.Some? && d.table.columns.Some? && d.table.skipRows.Some? &&
                 w.accepts(|s.log| + 1)) &&
              Rename(w.platform, s.files, d.relPath + target, ArchiveDir(d.dataDir) + target) == Ok(r.files)
  {
    var path := ForwardSlashes(d.relPath + target);
    var staged := s.(log := s.log + [StageCall(BuildStageParams(env.stage, path))]);
    if w.accepts(|s.log|) && d.ext == "csv" {
      IngestKeepsFiles(w, custom, d, staged, target);
    }
  }

  /** With archiving on, an upload that succeeds has moved the file into the archive directory. */
  lemma ArchivedUpload(w: World, env: Env, custom: Option<seq<CustomColumn>>, d: Dataset, s: State, target: string)
    requires EnvFlag(env.archiveFiles) && s.failure.None?
    requires UploadFile(w, env, custom, d, s, target).failure.None?
    ensures Rename(w.platform, s.files, d.relPath + target, ArchiveDir(d.dataDir) + target) ==
            Ok(UploadFile(w, env, custom, d, s, target).files)
  {
    var path := ForwardSlashes(d.relPath + target);
    var staged := s.(log := s.log + [StageCall(BuildStageParams(env.stage, path))]);
    if d.ext == "csv" {
      IngestKeepsFiles(w, custom, d, staged, target);
    }
  }

  /** A dataset's archive directory `ArchiveDir(data_dir)` is never its data directory `./data/<data_dir>`. */
  lemma ArchiveOutsideDataDir(dataDir: string)
    ensures "./data/" + dataDir != ArchiveDir(dataDir)
  {
    var dir, t, rel := ArchiveDir(dataDir), TrimTrailing(dataDir, '/'), "./data/" + dataDir;
    ArchiveDirectory(dataDir);
  }

  /**
   * Archiving, one iteration: with ARCHIVE_FILES on, a successful iteration
   * for file `k` leaves its original contents under
   * `ArchiveDir(data_dir) + <ds>_<k>.csv`, and neither its old name nor its
   * canonical name in the dataset directory. Nothing else changes, so a file
   * already archived under that name is replaced.
   */
  lemma ArchivedStep(w: World, env: Env, custom: Option<seq<CustomColumn>>, d: Dataset, s: State, k: nat)
    requires k < |d.targets| && EnvFlag(env.archiveFiles) && s.failure.None?
    requires d.relPath == "./data/" + d.dataDir
    requires ProcessFile(w, env, custom, d, s, k).failure.None?
    ensures var r, canonical := ProcessFile(w, env, custom, d, s, k), CanonicalName(d.name, k);
            var src, placed, archived := d.relPath + d.targets[k], d.relPath + canonical, ArchiveDir(d.dataDir) + canonical;
            src in s.files && placed !in r.files && archived in r.files && r.files[archived] == s.files[src] &&
            r.files.Keys == s.files.Keys - {src, placed} + {archived} &&
            forall p :: p in s.files && p != src && p != placed && p != archived ==> r.files[p] == s.files[p]
  {
    var canonical := CanonicalName(d.name, k);
    var src, placed, archived := d.relPath + d.targets[k], d.relPath + canonical, ArchiveDir(d.dataDir) + canonical;
    ArchiveOutsideDataDir(d.dataDir);
    SuffixCancel(d.relPath, ArchiveDir(d.dataDir), canonical);
    if d.targets[k] != canonical {
      CleanseGivesCanonicalName(d.name, d.relPath, d.targets[k], k);
      var renamed := Rename(w.platform, s.files, src, placed);
      assert renamed.Ok?;
      RenamedThenUploaded(w, env, custom, d, s, k, renamed.value);
      ArchivedUpload(w, env, custom, d, s.(files := renamed.value), canonical);
    } else {
      ArchivedUpload(w, env, custom, d, s, canonical);
    }
  }

  /** On Windows uploading (and archiving) a file keeps the contents and the number of files. */
  lemma UploadOnWindows(w: World, env: Env, custom: Option<seq<CustomColumn>>, d: Dataset, s: State, target: string)
    requires w.platform.Windows?
    ensures var r := UploadFile(w, env, custom, d, s, target);
            r.files.Values == s.files.Values && |r.files| == |s.files|
  {
    var r := UploadFile(w, env, custom, d, s, target);
    UploadMovesOnlyToArchive(w, env, custom, d, s, target);
    if r.files != s.files {
      RenameWithoutReplacing(s.files, d.relPath + target, ArchiveDir(d.dataDir) + target);
    }
  }

  /** On Windows one iteration never loses a file: the contents and the number of files stay. */
  lemma ProcessFileOnWindows(w: World, env: Env, custom: Option<seq<CustomColumn>>, d: Dataset, s: State, k: nat)
    requires k < |d.targets| && w.platform.Windows?
    ensures var r := ProcessFile(w, env, custom, d, s, k);
            r.files.Values == s.files.Values && |r.files| == |s.files|
  {
    var canonical := CanonicalName(d.name, k);
    var (src, dst) := CleansePaths(d.name, d.relPath, d.targets[k], DecimalString(k));
    if d.targets[k] != canonical {
      var moved := Rename(w.platform, s.files, src, dst);
      if moved.Ok? {
        RenameWithoutReplacing(s.files, src, dst);
        UploadOnWindows(w, env, custom, d, s.(files := moved.value), canonical);
      }
    } else {
      UploadOnWindows(w, env, custom, d, s, canonical);
    }
  }

  /** On Windows the file loop never loses a file: every content is still present, and no file disappears. */
  lemma {:induction false} WindowsKeepsEveryFile(w: World, env: Env, custom: Option<seq<CustomColumn>>,
                                                 d: Dataset, s0: State, n: nat)
    requires n <= |d.targets| && w.platform.Windows?
    ensures var r := RunFiles(w, env, custom, d, s0, n);
            r.files.Values == s0.files.Values && |r.files| == |s0.files|
  {
    if n > 0 {
      WindowsKeepsEveryFile(w, env, custom, d, s0, n - 1);
      var s := RunFiles(w, env, custom, d, s0, n - 1);
      if s.failure.None? {
        RunFilesNext(w, env, custom, d, s0, n - 1);
        ProcessFileOnWindows(w, env, custom, d, s, n - 1);
      }
    }
  }

  /**
   * What every call made for dataset table `t` carries: uploads go to
   * LOADING_STAGE with a `file://` path free of backslashes; ingestions load
   * `<table_name>__STAGING` then `<table_name>`, with the configured columns,
   * the delimiter (',' when absent) and the encoding ("UTF-8" when absent).
   */
  predicate WellFormedCall(t: TableConfig, c: Call)
  {
    match c
    case StageCall(p) =>
      p.stageName == StageName && |p.filePath| >= 7 && p.filePath[..7] == "file://" && '\\' !in p.filePath
    case IngestCall(p) =>
      t.tableName.Some? && t.columns.Some? &&
      p.destinationTable == t.tableName.value && p.stagingTable == t.tableName.value + "__STAGING" &&
      p.stageName == StageName &&
      p.columns == ColumnList(t.columns.value) && p.columnDefinitions == ColumnDefinitions(t.columns.value) &&
      p.fieldDelimiter == t.fieldDelimiter.GetOr(",") && p.encoding == t.encoding.GetOr("UTF-8")
  }

  /** `after` extends the call log of `before` with well-formed calls only. */
  predicate ExtendsWith(t: TableConfig, before: seq<Call>, after: seq<Call>)
  {
    |before| <= |after| && after[..|before|] == before &&
    forall i :: |before| <= i < |after| ==> WellFormedCall(t, after[i])
  }

  lemma ExtendsTransitive(t: TableConfig, a: seq<Call>, b: seq<Call>, c: seq<Call>)
    requires ExtendsWith(t, a, b) && ExtendsWith(t, b, c)
    ensures ExtendsWith(t, a, c)
  {
    assert c[..|a|] == c[..|b|][..|a|];
  }

  /** The delimiter and encoding a dataset set-up gives, as the configuration states them. */
  predicate ConfiguredDefaults(d: Dataset)
  {
    d.delimiter == d.table.fieldDelimiter.GetOr(",") && d.encoding == d.table.encoding.GetOr("UTF-8")
  }

  lemma IngestCalls(w: World, custom: Option<seq<CustomColumn>>, d: Dataset, s: State, target: string)
    requires ConfiguredDefaults(d)
    ensures ExtendsWith(d.table, s.log, IngestFile(w, custom, d, s, target).log)
  {
    var r := IngestFile(w, custom, d, s, target);
    if |r.log| > |s.log| {
      assert r.log == s.log + [r.log[|s.log|]];
    }
  }

  lemma UploadCalls(w: World, env: Env, custom: Option<seq<CustomColumn>>, d: Dataset, s: State, target: string)
    requires ConfiguredDefaults(d)
    ensures ExtendsWith(d.table, s.log, UploadFile(w, env, custom, d, s, target).log)
  {
    var path := ForwardSlashes(d.relPath + target);
    var staged := s.(log := s.log + [StageCall(BuildStageParams(env.stage, path))]);
    assert ExtendsWith(d.table, s.log, staged.log);
    if w.accepts(|s.log|) && d.ext == "csv" {
      IngestCalls(w, custom, d, staged, target);
      ExtendsTransitive(d.table, s.log, staged.log, IngestFile(w, custom, d, staged, target).log);
    }
  }

  lemma ProcessFileCalls(w: World, env: Env, custom: Option<seq<CustomColumn>>, d: Dataset, s: State, k: nat)
    requires k < |d.targets| && ConfiguredDefaults(d)
    ensures ExtendsWith(d.table, s.log, ProcessFile(w, env, custom, d, s, k).log)
  {
    var canonical := CanonicalName(d.name, k);
    var (src, dst) := CleansePaths(d.name, d.relPath, d.targets[k], DecimalString(k));
    if d.targets[k] != canonical {
      var moved := Rename(w.platform, s.files, src, dst);
      if moved.Ok? {
        UploadCalls(w, env, custom, d, s.(files := moved.value), canonical);
      }
    } else {
      UploadCalls(w, env, custom, d, s, canonical);
    }
  }

  lemma {:induction false} RunFilesCalls(w: World, env: Env, custom: Option<seq<CustomColumn>>,
                                         d: Dataset, s0: State, n: nat)
    requires n <= |d.targets| && ConfiguredDefaults(d)
    ensures ExtendsWith(d.table, s0.log, RunFiles(w, env, custom, d, s0, n).log)
  {
    if n > 0 {
      RunFilesCalls(w, env, custom, d, s0, n - 1);
      var s := RunFiles(w, env, custom, d, s0, n - 1);
      if s.failure.None? {
        ProcessFileCalls(w, env, custom, d, s, n - 1);
        ExtendsTransitive(d.table, s0.log, s.log, ProcessFile(w, env, custom, d, s, n - 1).log);
      }
    }
  }

  /**
   * Every call made while processing dataset `ds` is well formed for its
   * table: the staged path has no backslash and the stage is LOADING_STAGE;
   * the ingestion goes through `<table_name>__STAGING` with the configured
   * columns, and a missing delimiter or encoding is ',' or "UTF-8". Earlier
   * calls are kept.
   */
  lemma DatasetCalls(w: World, env: Env, custom: Option<seq<CustomColumn>>,
                     tables: map<string, TableConfig>, ds: string, s: State)
    ensures var r := RunDataset(w, env, custom, tables, ds, s);
            r.log == s.log || (ds in tables && ExtendsWith(tables[ds], s.log, r.log))
  {
    var setup := SetUp(w, env, tables, ds, s.files);
    if setup.Ok? {
      RunFilesCalls(w, env, custom, setup.value, s, |setup.value.targets|);
    }
  }

  /**
   * The failure scenario: when the warehouse client refuses the upload of
   * file `k`, the run stops with that failure; the file stays renamed in
   * the dataset directory, nothing is archived or ingested, and the upload
   * is the last call made.
   */
  lemma StageFailureKeepsRenamedFile(w: World, env: Env, custom: Option<seq<CustomColumn>>,
                                     d: Dataset, s: State, k: nat)
    requires k < |d.targets|
    requires d.relPath + d.targets[k] in s.files
    requires d.targets[k] != CanonicalName(d.name, k) && w.platform.Windows? ==>
               d.relPath + CanonicalName(d.name, k) !in s.files
    requires !w.accepts(|s.log|)
    ensures var r := ProcessFile(w, env, custom, d, s, k);
            var placed := d.relPath + CanonicalName(d.name, k);
            r.failure == Some(StageFailed(ForwardSlashes(placed))) &&
            |r.log| == |s.log| + 1 && r.log[..|s.log|] == s.log && r.log[|s.log|].StageCall? &&
            placed in r.files && r.files[placed] == s.files[d.relPath + d.targets[k]]
  {
    CleanseGivesCanonicalName(d.name, d.relPath, d.targets[k], k);
  }

  /**
   * The path of a file that uploads without a failure: with the csv
   * extension, the table keys present and both warehouse calls accepted, the
   * upload makes exactly the stage call and the ingest call, in that order,
   * and then, with archiving on, the move into the archive.
   */
  lemma SuccessfulUpload(w: World, env: Env, custom: Option<seq<CustomColumn>>, d: Dataset, s: State,
                         target: string, archived: Files)
    requires d.ext == "csv" && s.failure.None?
    requires d.table.tableName.Some? && d.table.columns.Some? && d.table.skipRows.Some?
    requires w.accepts(|s.log|) && w.accepts(|s.log| + 1)
    requires EnvFlag(env.archiveFiles) ==>
               Rename(w.platform, s.files, d.relPath + target, ArchiveDir(d.dataDir) + target) == Ok(archived)
    requires !EnvFlag(env.archiveFiles) ==> archived == s.files
    ensures var t := d.table;
            UploadFile(w, env, custom, d, s, target) ==
              State(archived,
                    s.log + [StageCall(BuildStageParams(env.stage, ForwardSlashes(d.relPath + target))),
                             IngestCall(BuildParams(target, t.tableName.value, t.columns.value, custom,
                                                    t.skipRows.value, d.delimiter, d.encoding))],
                    None)
  {
    var staged := s.(log := s.log + [StageCall(BuildStageParams(env.stage, ForwardSlashes(d.relPath + target)))]);
    assert |staged.log| == |s.log| + 1;
  }

  /**
   * A refused archive move (on Windows, an archived file of the same name)
   * ends the run after the file was staged and ingested, and leaves it in
   * the dataset directory, where the next run selects and ingests it again.
   */
  lemma ArchiveMoveRefused(w: World, env: Env, custom: Option<seq<CustomColumn>>, d: Dataset, s: State,
                           target: string, f: Failure)
    requires d.ext == "csv" && s.failure.None? && EnvFlag(env.archiveFiles)
    requires d.table.tableName.Some? && d.table.columns.Some? && d.table.skipRows.Some?
    requires w.accepts(|s.log|) && w.accepts(|s.log| + 1)
    requires Rename(w.platform, s.files, d.relPath + target, ArchiveDir(d.dataDir) + target) == Err(f)
    ensures var t := d.table;
            UploadFile(w, env, custom, d, s, target) ==
              State(s.files,
                    s.log + [StageCall(BuildStageParams(env.stage, ForwardSlashes(d.relPath + target))),
                             IngestCall(BuildParams(target, t.tableName.value, t.columns.value, custom,
                                                    t.skipRows.value, d.delimiter, d.encoding))],
                    Some(f))
  {
    var staged := s.(log := s.log + [StageCall(BuildStageParams(env.stage, ForwardSlashes(d.relPath + target)))]);
    assert |staged.log| == |s.log| + 1;
  }

  /** A file whose name is not canonical is renamed first, then uploaded under its canonical name. */
  lemma RenamedThenUploaded(w: World, env: Env, custom: Option<seq<CustomColumn>>, d: Dataset, s: State,
                            k: nat, moved: Files)
    requires k < |d.targets| && d.targets[k] != CanonicalName(d.name, k)
    requires Rename(w.platform, s.files, d.relPath + d.targets[k], d.relPath + CanonicalName(d.name, k)) == Ok(moved)
    ensures ProcessFile(w, env, custom, d, s, k) == UploadFile(w, env, custom, d, s.(files := moved), CanonicalName(d.name, k))
  {
    CleanseGivesCanonicalName(d.name, d.relPath, d.targets[k], k);
  }

  /**
   * A refused ingestion stops the run with IngestFailed for the table: both
   * calls were made, and the staged file stays where it is, unarchived.
   */
  lemma IngestFailureLeavesFile(w: World, env: Env, custom: Option<seq<CustomColumn>>, d: Dataset, s: State,
                                target: string)
    requires d.ext == "csv" && s.failure.None?
    requires d.table.tableName.Some? && d.table.columns.Some? && d.table.skipRows.Some?
    requires w.accepts(|s.log|) && !w.accepts(|s.log| + 1)
    ensures var r := UploadFile(w, env, custom, d, s, target);
            r.failure == Some(IngestFailed(d.table.tableName.value)) && r.files == s.files &&
            |r.log| == |s.log| + 2 && r.log[..|s.log|] == s.log &&
            r.log[|s.log|].StageCall? && r.log[|s.log| + 1].IngestCall?
  {
    var staged := s.(log := s.log + [StageCall(BuildStageParams(env.stage, ForwardSlashes(d.relPath + target)))]);
    assert |staged.log| == |s.log| + 1;
  }

  /** Every file a dataset selects exists: joined to the dataset directory it is a regular file. */
  lemma SelectedFilesExist(w: World, env: Env, tables: map<string, TableConfig>, ds: string, files: Files)
    ensures var r := SetUp(w, env, tables, ds, files);
            r.Ok? ==> forall x :: x in r.value.targets ==> PathJoin(r.value.relPath, x) in files
  {
    var r := SetUp(w, env, tables, ds, files);
    if r.Ok? {
      TargetsAreFiles(r.value.relPath, w.listdir(r.value.relPath).value, files.Keys, r.value.ext,
                      EnvFlag(env.multiFiles));
    }
  }

  /**
   * The listing joins names to the directory with `os.path.join`, but the
   * rename builds `dir + filename` by concatenation. The two agree when
   * `./data/<data_dir>` ends with a separator: then every selected
   * (relative) name is found by the rename. `FileLocator.PathJoinShape` says
   * they differ otherwise.
   */
  lemma SelectedSourcesFound(w: World, env: Env, tables: map<string, TableConfig>, ds: string, files: Files)
    ensures var r := SetUp(w, env, tables, ds, files);
            r.Ok? && r.value.relPath[|r.value.relPath| - 1] == '/' ==>
              forall x :: x in r.value.targets && (|x| == 0 || x[0] != '/') ==> r.value.relPath + x in files
  {
    SelectedFilesExist(w, env, tables, ds, files);
  }

  /**
   * A dataset whose `./data/<data_dir>` does not exist ends the whole run
   * with FileNotFound, before any of its files or any later dataset is
   * touched.
   */
  lemma MissingDirectoryEndsRun(w: World, env: Env, custom: Option<seq<CustomColumn>>,
                                tables: map<string, TableConfig>, datasets: seq<string>, s0: State, i: nat)
    requires i < |datasets| && RunAll(w, env, custom, tables, datasets, s0, i).failure.None?
    requires datasets[i] in tables && tables[datasets[i]].fileExt.Some? && tables[datasets[i]].dataDir.Some?
    requires w.listdir("./data/" + tables[datasets[i]].dataDir.value).None?
    ensures RunAll(w, env, custom, tables, datasets, s0, |datasets|) ==
            RunAll(w, env, custom, tables, datasets, s0, i).(
              failure := Some(FileNotFound("./data/" + tables[datasets[i]].dataDir.value)))
  {
    RunAllHalted(w, env, custom, tables, datasets, s0, i + 1, |datasets|);
  }

  /** A dataset whose set-up succeeds is the file loop over its selected files. */
  lemma DatasetRunsFiles(w: World, env: Env, custom: Option<seq<CustomColumn>>,
                         tables: map<string, TableConfig>, ds: string, s: State, d: Dataset)
    requires SetUp(w, env, tables, ds, s.files) == Ok(d)
    ensures RunDataset(w, env, custom, tables, ds, s) == RunFiles(w, env, custom, d, s, |d.targets|)
  {
  }

  /** A dataset whose directory yields exactly one file is one iteration of the file loop. */
  lemma SingleFileDataset(w: World, env: Env, custom: Option<seq<CustomColumn>>,
                          tables: map<string, TableConfig>, ds: string, s: State, d: Dataset)
    requires SetUp(w, env, tables, ds, s.files) == Ok(d) && |d.targets| == 1 && s.failure.None?
    ensures RunDataset(w, env, custom, tables, ds, s) == ProcessFile(w, env, custom, d, s, 0)
  {
    assert RunFiles(w, env, custom, d, s, 0) == s;
  }
}

=== FILE: scenarios.dfy ===
/**
 * Concrete runs of the script: the end-to-end upload of one file, and the
 * two outcomes, one per platform, when a canonical name is already taken.
 */
module Scenarios {
  import opened Optional
  import opened Text
  import opened FileLocator
  import opened Naming
  import opened Staging
  import opened Ingest
  import opened Pipeline
  import opened PipelineProperties

  /** `[table.sales]` with extension csv, table SALES_FACT, two columns and one header row. */
  function SalesTable(): TableConfig
  {
    TableConfig(Some("csv"), Some("sales/"), Some("SALES_FACT"),
                Some(SalesColumns()), Some(1), None, None)
  }

  function SalesTables(): map<string, TableConfig>
  {
    map["sales" := SalesTable()]
  }

  /** `./data/sales/` can hold `report.csv`; no other directory exists; every external call succeeds. */
  function SalesWorld(): World
  {
    World(Posix, dir => if dir == "./data/sales/" then Some(["report.csv"]) else None, _ => true)
  }

  /** Archiving on, multi-file mode off. */
  function ArchivingEnv(): Env
  {
    Env(None, Some("true"), StageEnv(None, None, None, None))
  }

  function SalesDataset(): Dataset
  {
    Dataset("sales", SalesTable(), "csv", "sales/", "./data/sales/", ["report.csv"], ",", "UTF-8")
  }

  /** A name without a leading separator is joined to `./data/sales/` by concatenation. */
  lemma SalesJoin(name: string)
    requires |name| > 0 && name[0] != '/'
    ensures PathJoin("./data/sales/", name) == "./data/sales/" + name
  {
    var dir := "./data/sales/";
    assert dir[|dir| - 1] == '/';
  }

  lemma SalesSetUp()
    ensures SetUp(SalesWorld(), ArchivingEnv(), SalesTables(), "sales", map["./data/sales/report.csv" := 7]) ==
            Ok(SalesDataset())
  {
    var files := map["./data/sales/report.csv" := 7];
    assert "./data/" + "sales/" == "./data/sales/";
    SalesJoin("report.csv");
    assert "./data/sales/" + "report.csv" == "./data/sales/report.csv";
    var listing := ListEntries("./data/sales/", ["report.csv"], files.Keys);
    assert listing == [Entry("report.csv", true)];
    assert EndsWith("report.csv", "csv");
    assert Matches(listing, "csv") == ["report.csv"];
    assert GetTargetFile(listing, "csv", false) == ["report.csv"];
  }

  /** Once `report.csv` has been archived, the sales directory offers nothing to select. */
  lemma SalesSetUpAfterArchive()
    ensures SetUp(SalesWorld(), ArchivingEnv(), SalesTables(), "sales",
                  map["./data/archive/sales/sales_0.csv" := 7]) == Ok(SalesDataset().(targets := []))
  {
    var files := map["./data/archive/sales/sales_0.csv" := 7];
    assert "./data/" + "sales/" == "./data/sales/";
    SalesJoin("report.csv");
    assert "./data/sales/" + "report.csv" == "./data/sales/report.csv";
    assert "./data/sales/report.csv"[7] != "./data/archive/sales/sales_0.csv"[7];
    var listing := ListEntries("./data/sales/", ["report.csv"], files.Keys);
    assert listing == [Entry("report.csv", false)];
    assert Matches(listing, "csv") == [];
  }

  lemma SalesArchiveDir()
    ensures ArchiveDir("sales/") == "./data/archive/sales/"
  {
    var full := "./data/archive/" + "sales/" + "/";
    assert full == "./data/archive/sales//";
    assert full[..|full| - 1] == "./data/archive/sales/";
    assert "./data/archive/sales/"[..|full| - 2] == "./data/archive/sales";
    assert TrimTrailing(full, '/') == "./data/archive/sales";
  }

  lemma SalesColumnList()
    ensures ColumnList(SalesColumns()) == "\"DATE\", \"AMOUNT\""
  {
    var q := QuotedNames(SalesColumns());
    assert Quote("DATE") == "\"DATE\"" && Quote("AMOUNT") == "\"AMOUNT\"";
    assert q == ["\"DATE\"", "\"AMOUNT\""];
    assert q[..1] == ["\"DATE\""];
    assert Join(q[..1], ListSep) == "\"DATE\"";
  }

  function SalesColumns(): seq<Column>
  {
    [Column("DATE", "DATE"), Column("AMOUNT", "NUMBER")]
  }

  /** The ingestion of `sales_0.csv` into SALES_FACT. */
  lemma SalesIngest(s: State)
    ensures IngestFile(SalesWorld(), None, SalesDataset(), s, "sales_0.csv") ==
            s.(log := s.log + [IngestCall(BuildParams("sales_0.csv", "SALES_FACT", SalesColumns(), None, 1, ",", "UTF-8"))])
  {
    var t := SalesDataset().table;
    assert t.tableName == Some("SALES_FACT") && t.columns == Some(SalesColumns()) && t.skipRows == Some(1);
  }

  /** The paths the script builds for the sales dataset. */
  lemma SalesPaths()
    ensures "./data/sales/" + "sales_0.csv" == "./data/sales/sales_0.csv"
    ensures "./data/sales/" + "report.csv" == "./data/sales/report.csv"
    ensures '\\' !in "./data/sales/sales_0.csv"
  {
  }

  lemma SalesArchivePath()
    ensures "./data/archive/sales/" + "sales_0.csv" == "./data/archive/sales/sales_0.csv"
  {
  }

  lemma SalesStagingTable()
    ensures "SALES_FACT" + "__STAGING" == "SALES_FACT__STAGING"
  {
  }

  lemma SalesCanonicalName()
    ensures CanonicalName("sales", 0) == "sales_0.csv"
  {
    assert DecimalString(0) == "0";
  }

  lemma SalesRename(files: Files)
    requires files == map["./data/sales/report.csv" := 7]
    ensures Rename(Posix, files, "./data/sales/report.csv", "./data/sales/sales_0.csv") ==
            Ok(map["./data/sales/sales_0.csv" := 7])
  {
    assert (files - {"./data/sales/report.csv"}).Keys == {};
  }

  lemma SalesArchiveMove(files: Files)
    requires files == map["./data/sales/sales_0.csv" := 7]
    ensures Rename(Posix, files, "./data/sales/sales_0.csv", "./data/archive/sales/sales_0.csv") ==
            Ok(map["./data/archive/sales/sales_0.csv" := 7])
  {
    assert (files - {"./data/sales/sales_0.csv"}).Keys == {};
  }

  /** Uploading, ingesting and archiving the renamed `sales_0.csv`. */
  lemma SalesUpload(s: State)
    requires s.files == map["./data/sales/sales_0.csv" := 7] && s.log == [] && s.failure == None
    ensures UploadFile(SalesWorld(), ArchivingEnv(), None, SalesDataset(), s, "sales_0.csv") ==
            State(map["./data/archive/sales/sales_0.csv" := 7],
                  [StageCall(BuildStageParams(StageEnv(None, None, None, None), "./data/sales/sales_0.csv")),
                   IngestCall(BuildParams("sales_0.csv", "SALES_FACT", SalesColumns(), None, 1, ",", "UTF-8"))],
                  None)
  {
    var placed, archived := "./data/sales/sales_0.csv", "./data/archive/sales/sales_0.csv";
    SalesPaths();
    SalesArchivePath();
    ForwardSlashesKeeps(placed);
    SalesArchiveDir();
    SalesArchiveMove(s.files);
    SuccessfulUpload(SalesWorld(), ArchivingEnv(), None, SalesDataset(), s, "sales_0.csv", map[archived := 7]);
  }

  /**
   * One pass over `report.csv`: it is renamed to `sales_0.csv`, staged from
   * `file://./data/sales/sales_0.csv`, ingested into SALES_FACT through
   * SALES_FACT__STAGING with the two configured columns, and moved to
   * `./data/archive/sales/`.
   */
  lemma SalesEndToEnd()
    ensures var r := RunDataset(SalesWorld(), ArchivingEnv(), None, SalesTables(), "sales",
                                State(map["./data/sales/report.csv" := 7], [], None));
            r.failure == None && r.files == map["./data/archive/sales/sales_0.csv" := 7] && |r.log| == 2 &&
            r.log[0].StageCall? && r.log[0].stage.filePath == "file://" + "./data/sales/sales_0.csv" &&
            r.log[0].stage.stageName == "LOADING_STAGE" &&
            r.log[1].IngestCall? && r.log[1].ingest.fileName == "sales_0.csv" &&
            r.log[1].ingest.stagingTable == "SALES_FACT__STAGING" &&
            r.log[1].ingest.destinationTable == "SALES_FACT" &&
            r.log[1].ingest.columns == "\"DATE\", \"AMOUNT\""
  {
    var placed := "./data/sales/sales_0.csv";
    var s0 := State(map["./data/sales/report.csv" := 7], [], None);
    SalesPaths();
    SalesStagingTable();
    SalesCanonicalName();
    SalesColumnList();
    SalesRename(s0.files);
    SalesSetUp();
    SingleFileDataset(SalesWorld(), ArchivingEnv(), None, SalesTables(), "sales", s0, SalesDataset());
    RenamedThenUploaded(SalesWorld(), ArchivingEnv(), None, SalesDataset(), s0, 0, map[placed := 7]);
    SalesUpload(s0.(files := map[placed := 7]));
  }

  /**
   * Running the sales dataset twice: the second pass lists `./data/sales/`
   * again, finds `report.csv` gone (it was renamed and archived), selects
   * nothing and ends normally without another call.
   */
  lemma SalesTwice()
    ensures var r := RunAll(SalesWorld(), ArchivingEnv(), None, SalesTables(), ["sales", "sales"],
                            State(map["./data/sales/report.csv" := 7], [], None), 2);
            r.failure == None && r.files == map["./data/archive/sales/sales_0.csv" := 7] && |r.log| == 2
  {
    var w, env, tables, datasets := SalesWorld(), ArchivingEnv(), SalesTables(), ["sales", "sales"];
    var s0 := State(map["./data/sales/report.csv" := 7], [], None);
    SalesEndToEnd();
    var r1 := RunAll(w, env, None, tables, datasets, s0, 1);
    assert r1 == RunDataset(w, env, None, tables, "sales", s0);
    SalesSetUpAfterArchive();
    assert r1.files == map["./data/archive/sales/sales_0.csv" := 7];
    assert RunDataset(w, env, None, tables, "sales", r1) == r1;
  }

  /** Multi-file mode on, archiving off. */
  function MultiNoArchive(): Env
  {
    Env(Some("true"), None, StageEnv(None, None, None, None))
  }

  /** `./data/sales/` lists `x.csv` before `sales_0.csv`; every external call succeeds. */
  function TakenWorld(platform: Platform): World
  {
    World(platform, dir => if dir == "./data/sales/" then Some(["x.csv", "sales_0.csv"]) else None, _ => true)
  }

  function TakenNameFiles(): Files
  {
    map["./data/sales/x.csv" := 1, "./data/sales/sales_0.csv" := 2]
  }

  /** The sales dataset when both files are selected. */
  function TakenNameDataset(): Dataset
  {
    SalesDataset().(targets := ["x.csv", "sales_0.csv"])
  }

  /** The listing of two names, each a regular file exactly when its joined path is one. */
  lemma ListPair(dir: string, a: string, b: string, paths: set<string>)
    ensures ListEntries(dir, [a, b], paths) ==
            [Entry(a, PathJoin(dir, a) in paths), Entry(b, PathJoin(dir, b) in paths)]
  {
    var listing := ListEntries(dir, [a, b], paths);
    assert listing[0] == Entry(a, PathJoin(dir, a) in paths);
    assert listing[1] == Entry(b, PathJoin(dir, b) in paths);
  }

  /** Selecting from two entries selects from each in turn. */
  lemma MatchesPair(e1: Entry, e2: Entry, ext: string)
    ensures Matches([e1, e2], ext) ==
            (if IsTarget(e1, ext) then [e1.name] else []) + (if IsTarget(e2, ext) then [e2.name] else [])
  {
    assert [e1, e2][1..] == [e2];
    assert [e2][1..] == [];
    assert Matches([e2], ext) == (if IsTarget(e2, ext) then [e2.name] else []) + [];
  }

  lemma SalesDirectory()
    ensures "./data/" + "sales/" == "./data/sales/"
  {
  }

  lemma ExtensionFacts()
    ensures EndsWith("x.csv", "csv") && EndsWith("sales_0.csv", "csv")
    ensures EndsWith("a.txt", "txt") && !EndsWith("sales_0.csv", "txt")
  {
    assert "sales_0.csv"[|"sales_0.csv"| - 3..] == "csv";
  }

  lemma TakenListing()
    ensures ListEntries("./data/sales/", ["x.csv", "sales_0.csv"], TakenNameFiles().Keys) ==
            [Entry("x.csv", true), Entry("sales_0.csv", true)]
  {
    ListPair("./data/sales/", "x.csv", "sales_0.csv", TakenNameFiles().Keys);
    SalesJoin("x.csv");
    SalesJoin("sales_0.csv");
    TakenNamePaths();
  }

  /** In multi-file mode both files are selected, `x.csv` first. */
  lemma TakenNameSetUp(platform: Platform)
    ensures SetUp(TakenWorld(platform), MultiNoArchive(), SalesTables(), "sales", TakenNameFiles()) ==
            Ok(TakenNameDataset())
  {
    SalesDirectory();
    TakenListing();
    ExtensionFacts();
    var listing := [Entry("x.csv", true), Entry("sales_0.csv", true)];
    MatchesPair(listing[0], listing[1], "csv");
    assert Matches(listing, "csv") == ["x.csv", "sales_0.csv"];
    assert EnvFlag(MultiNoArchive().multiFiles);
    assert GetTargetFile(listing, "csv", true) == ["x.csv", "sales_0.csv"];
  }

  lemma TakenNamePaths()
    ensures CanonicalName("sales", 0) == "sales_0.csv" && CanonicalName("sales", 1) == "sales_1.csv"
    ensures "./data/sales/" + "x.csv" == "./data/sales/x.csv"
    ensures "./data/sales/" + "sales_0.csv" == "./data/sales/sales_0.csv"
    ensures "./data/sales/" + "sales_1.csv" == "./data/sales/sales_1.csv"
    ensures "./data/sales/" + "a.txt" == "./data/sales/a.txt"
  {
    assert DecimalString(0) == "0" && DecimalString(1) == "1";
  }

  lemma TakenNamePosixFirst()
    ensures var r := RunFiles(TakenWorld(Posix), MultiNoArchive(), None, TakenNameDataset(),
                              State(TakenNameFiles(), [], None), 1);
            r.failure == None && r.files == map["./data/sales/sales_0.csv" := 1] && |r.log| == 2
  {
    var w, d, files := TakenWorld(Posix), TakenNameDataset(), TakenNameFiles();
    var s0 := State(files, [], None);
    var x, zero := "./data/sales/x.csv", "./data/sales/sales_0.csv";
    TakenNamePaths();
    assert x != zero && files[x] == 1;
    assert (files - {x}).Keys == {zero};
    var moved := (files - {x})[zero := files[x]];
    assert moved.Keys == {zero} && moved[zero] == 1;
    assert moved == map[zero := 1];
    assert Rename(Posix, files, x, zero) == Ok(map[zero := 1]);
    RenamedThenUploaded(w, MultiNoArchive(), None, d, s0, 0, map[zero := 1]);
    SuccessfulUpload(w, MultiNoArchive(), None, d, s0.(files := map[zero := 1]), "sales_0.csv", map[zero := 1]);
  }

  lemma TakenNamePosixSecond(s: State)
    requires s.failure == None && s.files == map["./data/sales/sales_0.csv" := 1] && |s.log| == 2
    ensures var r := ProcessFile(TakenWorld(Posix), MultiNoArchive(), None, TakenNameDataset(), s, 1);
            r.failure == None && r.files == map["./data/sales/sales_1.csv" := 1] && |r.log| == 4
  {
    var w, d := TakenWorld(Posix), TakenNameDataset();
    var zero, one := "./data/sales/sales_0.csv", "./data/sales/sales_1.csv";
    TakenNamePaths();
    assert (s.files - {zero}).Keys == {};
    assert Rename(Posix, s.files, zero, one) == Ok(map[one := 1]);
    RenamedThenUploaded(w, MultiNoArchive(), None, d, s, 1, map[one := 1]);
    SuccessfulUpload(w, MultiNoArchive(), None, d, s.(files := map[one := 1]), "sales_1.csv", map[one := 1]);
  }

  lemma TakenNameWindowsFirst()
    ensures var r := RunFiles(TakenWorld(Windows), MultiNoArchive(), None, TakenNameDataset(),
                              State(TakenNameFiles(), [], None), 1);
            r == State(TakenNameFiles(), [], Some(FileExists("./data/sales/sales_0.csv")))
  {
    var files := TakenNameFiles();
    var x, zero := "./data/sales/x.csv", "./data/sales/sales_0.csv";
    TakenNamePaths();
    assert DecimalString(0) == "0";
    assert "./data/sales/" + "sales" + "_" + "0" + ".csv" == zero;
    assert CleansePaths("sales", "./data/sales/", "x.csv", "0") == (x, zero);
    assert Rename(Windows, files, x, zero) == Err(FileExists(zero));
  }

  lemma TakenCanonicalNamePosix()
    ensures var r := RunDataset(TakenWorld(Posix), MultiNoArchive(), None, SalesTables(), "sales",
                                State(TakenNameFiles(), [], None));
            r.failure == None && r.files == map["./data/sales/sales_1.csv" := 1] && |r.log| == 4
  {
    var w, env, d, s0 := TakenWorld(Posix), MultiNoArchive(), TakenNameDataset(), State(TakenNameFiles(), [], None);
    TakenNameSetUp(Posix);
    DatasetRunsFiles(w, env, None, SalesTables(), "sales", s0, d);
    TakenNamePosixFirst();
    RunFilesNext(w, env, None, d, s0, 1);
    TakenNamePosixSecond(RunFiles(w, env, None, d, s0, 1));
  }

  lemma TakenCanonicalNameWindows()
    ensures RunDataset(TakenWorld(Windows), MultiNoArchive(), None, SalesTables(), "sales",
                       State(TakenNameFiles(), [], None)) ==
            State(TakenNameFiles(), [], Some(FileExists("./data/sales/sales_0.csv")))
  {
    var w, env, d, s0 := TakenWorld(Windows), MultiNoArchive(), TakenNameDataset(), State(TakenNameFiles(), [], None);
    TakenNameSetUp(Windows);
    DatasetRunsFiles(w, env, None, SalesTables(), "sales", s0, d);
    TakenNameWindowsFirst();
    RunFilesHalted(w, env, None, d, s0, 1, 2);
  }

  /**
   * Listing order decides what a taken canonical name costs. With `x.csv`
   * listed before `sales_0.csv` in multi-file mode, POSIX renames `x.csv`
   * onto `sales_0.csv`, whose contents (2) are lost, and then uploads and
   * ingests `x.csv`'s contents (1) twice, as sales_0.csv and as
   * sales_1.csv; Windows stops at the first rename, before any call, and
   * loses nothing.
   */
  lemma TakenCanonicalName()
    ensures var files, env, tables := TakenNameFiles(), MultiNoArchive(), SalesTables();
            var posix := RunDataset(TakenWorld(Posix), env, None, tables, "sales", State(files, [], None));
            var windows := RunDataset(TakenWorld(Windows), env, None, tables, "sales", State(files, [], None));
            2 in files.Values && 2 !in posix.files.Values &&
            posix.failure == None && posix.files == map["./data/sales/sales_1.csv" := 1] && |posix.log| == 4 &&
            windows.failure == Some(FileExists("./data/sales/sales_0.csv")) && windows.files == files &&
            windows.log == []
  {
    var files := TakenNameFiles();
    TakenCanonicalNamePosix();
    TakenCanonicalNameWindows();
    assert files["./data/sales/sales_0.csv"] == 2;
    var m := map["./data/sales/sales_1.csv" := 1];
    assert forall k | k in m :: m[k] == 1;
  }

  /** A `txt` dataset sharing `./data/sales/` with a `sales_0.csv` it does not select. */
  function TextTables(): map<string, TableConfig>
  {
    map["sales" := TableConfig(Some("txt"), Some("sales/"), None, None, None, None, None)]
  }

  function TextWorld(): World
  {
    World(Posix, dir => if dir == "./data/sales/" then Some(["a.txt", "sales_0.csv"]) else None, _ => true)
  }

  function TextFiles(): Files
  {
    map["./data/sales/a.txt" := 1, "./data/sales/sales_0.csv" := 2]
  }

  function TextDataset(): Dataset
  {
    Dataset("sales", TextTables()["sales"], "txt", "sales/", "./data/sales/", ["a.txt"], ",", "UTF-8")
  }

  lemma TextListing()
    ensures ListEntries("./data/sales/", ["a.txt", "sales_0.csv"], TextFiles().Keys) ==
            [Entry("a.txt", true), Entry("sales_0.csv", true)]
  {
    ListPair("./data/sales/", "a.txt", "sales_0.csv", TextFiles().Keys);
    SalesJoin("a.txt");
    SalesJoin("sales_0.csv");
    TakenNamePaths();
  }

  lemma TextSetUp()
    ensures SetUp(TextWorld(), MultiNoArchive(), TextTables(), "sales", TextFiles()) == Ok(TextDataset())
  {
    SalesDirectory();
    TextListing();
    ExtensionFacts();
    var listing := [Entry("a.txt", true), Entry("sales_0.csv", true)];
    MatchesPair(listing[0], listing[1], "txt");
    assert Matches(listing, "txt") == ["a.txt"];
    assert EnvFlag(MultiNoArchive().multiFiles);
    assert GetTargetFile(listing, "txt", true) == ["a.txt"];
  }

  /**
   * A file under a canonical name that the dataset does not select is not
   * protected: renaming `a.txt` to `sales_0.csv` on POSIX replaces the
   * unselected `sales_0.csv`, whose contents (2) are lost, and the run ends
   * normally after one upload.
   */
  lemma UnselectedFileReplaced()
    ensures var r := RunDataset(TextWorld(), MultiNoArchive(), None, TextTables(), "sales",
                                State(TextFiles(), [], None));
            "./data/sales/sales_0.csv" in TextFiles() && TextFiles()["./data/sales/sales_0.csv"] == 2 &&
            r.failure == None && r.files == map["./data/sales/sales_0.csv" := 1] && 2 !in r.files.Values &&
            |r.log| == 1
  {
    var w, env, d, files := TextWorld(), MultiNoArchive(), TextDataset(), TextFiles();
    var a, zero := "./data/sales/a.txt", "./data/sales/sales_0.csv";
    var s0 := State(files, [], None);
    TextSetUp();
    TakenNamePaths();
    assert "./data/sales/" + "a.txt" == a;
    assert a != zero && files[a] == 1;
    assert (files - {a}).Keys == {zero};
    var moved := (files - {a})[zero := files[a]];
    assert moved.Keys == {zero} && moved[zero] == 1;
    assert moved == map[zero := 1];
    assert Rename(Posix, files, a, zero) == Ok(map[zero := 1]);
    RenamedThenUploaded(w, env, None, d, s0, 0, map[zero := 1]);
    UploadKeepsFiles(w, env, None, d, s0.(files := map[zero := 1]), "sales_0.csv");
    SingleFileDataset(w, env, None, TextTables(), "sales", s0, d);
    assert map[zero := 1].Values == {1};
  }

  /** `./data/sales/` can hold `report.csv`; every external call succeeds. */
  function CollisionWorld(platform: Platform): World
  {
    World(platform, dir => if dir == "./data/sales/" then Some(["report.csv"]) else None, _ => true)
  }

  /** A new `report.csv` (1) while an earlier batch is archived as `sales_0.csv` (9). */
  function CollisionFiles(): Files
  {
    map["./data/sales/report.csv" := 1, "./data/archive/sales/sales_0.csv" := 9]
  }

  lemma CollisionSetUp(platform: Platform)
    ensures SetUp(CollisionWorld(platform), ArchivingEnv(), SalesTables(), "sales", CollisionFiles()) ==
            Ok(SalesDataset())
  {
    var files := CollisionFiles();
    SalesDirectory();
    SalesJoin("report.csv");
    SalesPaths();
    var listing := ListEntries("./data/sales/", ["report.csv"], files.Keys);
    assert listing == [Entry("report.csv", true)];
    assert EndsWith("report.csv", "csv");
    assert Matches(listing, "csv") == ["report.csv"];
    assert GetTargetFile(listing, "csv", false) == ["report.csv"];
  }

  /** The first rename of the collision run: `report.csv` becomes `sales_0.csv` beside the archive. */
  lemma CollisionRename(platform: Platform)
    ensures Rename(platform, CollisionFiles(), "./data/sales/report.csv", "./data/sales/sales_0.csv") ==
            Ok(map["./data/sales/sales_0.csv" := 1, "./data/archive/sales/sales_0.csv" := 9])
  {
    var files := CollisionFiles();
    var report, placed, archived := "./data/sales/report.csv", "./data/sales/sales_0.csv", "./data/archive/sales/sales_0.csv";
    assert report[7] != archived[7] && placed[7] != archived[7] && report[13] != placed[13];
    assert (files - {report}) == map[archived := 9];
    var moved := map[archived := 9][placed := files[report]];
    assert moved.Keys == {placed, archived} && moved[placed] == 1 && moved[archived] == 9;
    assert moved == map[placed := 1, archived := 9];
  }

  /**
   * The archive collision on POSIX: archiving the new `sales_0.csv` replaces
   * the earlier batch's archived `sales_0.csv`, whose contents (9) are lost,
   * and the run ends normally.
   */
  lemma ArchiveCollisionPosix()
    ensures var r := RunDataset(CollisionWorld(Posix), ArchivingEnv(), None, SalesTables(), "sales",
                                State(CollisionFiles(), [], None));
            r.failure == None && r.files == map["./data/archive/sales/sales_0.csv" := 1] &&
            9 in CollisionFiles().Values && 9 !in r.files.Values && |r.log| == 2
  {
    var w, env, d, s0 := CollisionWorld(Posix), ArchivingEnv(), SalesDataset(), State(CollisionFiles(), [], None);
    var placed, archived := "./data/sales/sales_0.csv", "./data/archive/sales/sales_0.csv";
    var moved := map[placed := 1, archived := 9];
    CollisionSetUp(Posix);
    SingleFileDataset(w, env, None, SalesTables(), "sales", s0, d);
    SalesCanonicalName();
    SalesPaths();
    CollisionRename(Posix);
    RenamedThenUploaded(w, env, None, d, s0, 0, moved);
    CollisionArchivePosix(s0.(files := moved));
    assert CollisionFiles()[archived] == 9;
    var m := map[archived := 1];
    assert forall k | k in m :: m[k] == 1;
  }

  /** On POSIX the archive move of the new `sales_0.csv` replaces the archived one. */
  lemma CollisionArchivePosix(s: State)
    requires s.files == map["./data/sales/sales_0.csv" := 1, "./data/archive/sales/sales_0.csv" := 9]
    requires s.log == [] && s.failure == None
    ensures var r := UploadFile(CollisionWorld(Posix), ArchivingEnv(), None, SalesDataset(), s, "sales_0.csv");
            r.failure == None && r.files == map["./data/archive/sales/sales_0.csv" := 1] && |r.log| == 2
  {
    var placed, archived := "./data/sales/sales_0.csv", "./data/archive/sales/sales_0.csv";
    SalesPaths();
    SalesArchivePath();
    SalesArchiveDir();
    assert placed[7] != archived[7];
    assert (s.files - {placed}) == map[archived := 9];
    assert map[archived := 9][archived := 1] == map[archived := 1];
    assert Rename(Posix, s.files, placed, archived) == Ok(map[archived := 1]);
    SuccessfulUpload(CollisionWorld(Posix), ArchivingEnv(), None, SalesDataset(), s, "sales_0.csv", map[archived := 1]);
  }

  /**
   * The archive collision on Windows: the archive move is refused after
   * the file was staged and ingested, so the run stops with FileExists and
   * the ingested `sales_0.csv` stays in `./data/sales/`, where the next run
   * selects and ingests it again.
   */
  lemma ArchiveCollisionWindows()
    ensures var r := RunDataset(CollisionWorld(Windows), ArchivingEnv(), None, SalesTables(), "sales",
                                State(CollisionFiles(), [], None));
            r.failure == Some(FileExists("./data/archive/sales/sales_0.csv")) &&
            r.files == map["./data/sales/sales_0.csv" := 1, "./data/archive/sales/sales_0.csv" := 9] &&
            |r.log| == 2 && r.log[1].IngestCall?
  {
    var w, env, d, s0 := CollisionWorld(Windows), ArchivingEnv(), SalesDataset(), State(CollisionFiles(), [], None);
    var placed, archived := "./data/sales/sales_0.csv", "./data/archive/sales/sales_0.csv";
    var moved := map[placed := 1, archived := 9];
    CollisionSetUp(Windows);
    SingleFileDataset(w, env, None, SalesTables(), "sales", s0, d);
    SalesCanonicalName();
    SalesPaths();
    SalesArchivePath();
    SalesArchiveDir();
    CollisionRename(Windows);
    RenamedThenUploaded(w, env, None, d, s0, 0, moved);
    assert Rename(Windows, moved, placed, archived) == Err(FileExists(archived));
    ArchiveMoveRefused(w, env, None, d, s0.(files := moved), "sales_0.csv", FileExists(archived));
  }

  /** `data_dir = "sales"`, without the trailing separator the rename relies on. */
  function BareTables(): map<string, TableConfig>
  {
    map["sales" := SalesTable().(dataDir := Some("sales"))]
  }

  function BareWorld(): World
  {
    World(Posix, dir => if dir == "./data/sales" then Some(["report.csv"]) else None, _ => true)
  }

  function BareDataset(): Dataset
  {
    Dataset("sales", BareTables()["sales"], "csv", "sales", "./data/sales", ["report.csv"], ",", "UTF-8")
  }

  /** The listing joins `./data/sales` and `report.csv` with a separator, so `report.csv` is selected. */
  lemma BareSetUp()
    ensures SetUp(BareWorld(), ArchivingEnv(), BareTables(), "sales", map["./data/sales/report.csv" := 7]) ==
            Ok(BareDataset())
  {
    var files := map["./data/sales/report.csv" := 7];
    var dir := "./data/sales";
    assert "./data/" + "sales" == dir;
    assert dir[|dir| - 1] != '/';
    assert PathJoin(dir, "report.csv") == dir + "/" + "report.csv" == "./data/sales/report.csv";
    var listing := ListEntries(dir, ["report.csv"], files.Keys);
    assert listing == [Entry("report.csv", true)];
    assert EndsWith("report.csv", "csv");
    assert Matches(listing, "csv") == ["report.csv"];
    assert GetTargetFile(listing, "csv", false) == ["report.csv"];
  }

  /**
   * Without a trailing separator in `data_dir` the selected file is not
   * where the rename looks: `./data/sales` + `report.csv` is
   * `./data/salesreport.csv`, so the run stops with FileNotFound before any
   * call, although `./data/sales/report.csv` exists.
   */
  lemma BareDataDirFails()
    ensures var files := map["./data/sales/report.csv" := 7];
            RunDataset(BareWorld(), ArchivingEnv(), None, BareTables(), "sales", State(files, [], None)) ==
            State(files, [], Some(FileNotFound("./data/salesreport.csv")))
  {
    var files := map["./data/sales/report.csv" := 7];
    var d, s0 := BareDataset(), State(files, [], None);
    var src := "./data/salesreport.csv";
    BareSetUp();
    SingleFileDataset(BareWorld(), ArchivingEnv(), None, BareTables(), "sales", s0, d);
    SalesCanonicalName();
    CleanseGivesCanonicalName("sales", "./data/sales", "report.csv", 0);
    assert "./data/sales" + "report.csv" == src;
    assert src[12] != "./data/sales/report.csv"[12];
    assert src !in files;
  }
}

=== FILE: staging.dfy ===
/**
 * The parameters of the "stage file" statement built by `stage`. Rendering
 * the template and running the warehouse command-line client are not part
 * of this model.
 */
module Staging {
  import opened Optional
  import opened Text

  /** The staging area every file is uploaded to. */
  const StageName: string := "LOADING_STAGE"

  /** The environment variables `stage` reads (`getenv` may give nothing). */
  datatype StageEnv = StageEnv(role: Option<string>, database: Option<string>,
                               schema: Option<string>, stageOverwrite: Option<string>)

  datatype StageParams = StageParams(role: Option<string>, database: Option<string>,
                                     schema: Option<string>, stageName: string,
                                     filePath: string, autoCompress: string,
                                     overwrite: Option<string>)

  /** The `params` dictionary of `stage(file_path)`. */
  function BuildStageParams(env: StageEnv, filePath: string): (p: StageParams)
    ensures p.stageName == StageName && p.autoCompress == "false"
    ensures |p.filePath| == |filePath| + 7
    ensures p.filePath[..7] == "file://" && p.filePath[7..] == filePath
    ensures '\\' !in filePath ==> '\\' !in p.filePath
    ensures p.role == env.role && p.database == env.database && p.schema == env.schema
    ensures p.overwrite == env.stageOverwrite
  {
    StageParams(env.role, env.database, env.schema, StageName,
                "file://" + filePath, "false", env.stageOverwrite)
  }
}

=== FILE: text.dfy ===
/**
 * String helpers with the meaning Python gives them: `sep.join(parts)`,
 * `s.split(sep)`, `s.endswith(suffix)`, `s.replace("\\", "/")` and `str(n)`
 * for a natural number.
 */
module Text {
  import opened Optional

  /** `sep.join(parts)`. */
  function Join(parts: seq<string>, sep: string): string
  {
    if |parts| == 0 then ""
    else if |parts| == 1 then parts[0]
    else parts[0] + sep + Join(parts[1..], sep)
  }

  /** Appending a part to a non-empty join adds exactly one separator-prefixed segment. */
  lemma {:induction false} JoinAppend(parts: seq<string>, sep: string, last: string)
    requires |parts| > 0
    ensures Join(parts + [last], sep) == Join(parts, sep) + sep + last
  {
    if |parts| == 1 {
      assert (parts + [last])[1..] == [last];
    } else {
      assert (parts + [last])[1..] == parts[1..] + [last];
      JoinAppend(parts[1..], sep, last);
    }
  }

  /** `s.endswith(suffix)`. */
  predicate EndsWith(s: string, suffix: string)
  {
    |suffix| <= |s| && s[|s| - |suffix|..] == suffix
  }

  /** `sep` occurs in `s` starting at position `i`. */
  predicate OccursAt(s: string, sep: string, i: nat)
  {
    i + |sep| <= |s| && s[i..i + |sep|] == sep
  }

  /** The first position at or after `from` where `sep` occurs in `s`. */
  function FindFrom(s: string, sep: string, from: nat): (r: Option<nat>)
    decreases |s| - from
    ensures r.Some? ==> from <= r.value && OccursAt(s, sep, r.value)
    ensures r.Some? ==> forall j: nat :: from <= j < r.value ==> !OccursAt(s, sep, j)
    ensures r.None? ==> forall j: nat :: from <= j ==> !OccursAt(s, sep, j)
  {
    if from + |sep| > |s| then None
    else if s[from..from + |sep|] == sep then Some(from)
    else FindFrom(s, sep, from + 1)
  }

  /** `s.split(sep)`: cut at every occurrence of `sep`, scanning left to right. */
  function Split(s: string, sep: string): (parts: seq<string>)
    requires |sep| > 0
    decreases |s|
  {
    match FindFrom(s, sep, 0)
    case None => [s]
    case Some(i) => [s[..i]] + Split(s[i + |sep|..], sep)
  }

  /** No occurrence of `sep` in `p + sep` starts inside `p`, so `p` cannot be cut early. */
  predicate Separable(p: string, sep: string)
  {
    forall i: nat :: i < |p| ==> !OccursAt(p + sep, sep, i)
  }

  /** Splitting a join gives back its parts, provided no part can be cut early. */
  lemma {:induction false} SplitJoin(parts: seq<string>, sep: string)
    requires |sep| > 0 && |parts| > 0
    requires forall k :: 0 <= k < |parts| ==> Separable(parts[k], sep)
    ensures Split(Join(parts, sep), sep) == parts
  {
    var p := parts[0];
    assert Separable(p, sep);
    if |parts| == 1 {
      forall j: nat ensures !OccursAt(p, sep, j) {
        if j < |p| {
          assert !OccursAt(p + sep, sep, j);
          if j + |sep| <= |p| {
            assert (p + sep)[j..j + |sep|] == p[j..j + |sep|];
          }
        }
      }
      assert FindFrom(p, sep, 0).None?;
    } else {
      var rest := Join(parts[1..], sep);
      var s := p + sep + rest;
      assert Join(parts, sep) == s;
      assert s[|p|..|p| + |sep|] == sep;
      assert OccursAt(s, sep, |p|);
      forall j: nat | j < |p| ensures !OccursAt(s, sep, j) {
        assert !OccursAt(p + sep, sep, j);
        assert s[j..j + |sep|] == (p + sep)[j..j + |sep|];
      }
      assert FindFrom(s, sep, 0) == Some(|p|);
      assert s[..|p|] == p;
      assert s[|p| + |sep|..] == rest;
      assert Split(s, sep) == [p] + Split(rest, sep);
      SplitJoin(parts[1..], sep);
      assert parts == [p] + parts[1..];
    }
  }

  /** A part without the separator's first character cannot be cut early. */
  lemma SeparableWithoutFirst(p: string, sep: string)
    requires |sep| > 0 && sep[0] !in p
    ensures Separable(p, sep)
  {
    forall i: nat | i < |p| ensures !OccursAt(p + sep, sep, i) {
      assert p[i] in p;
      if i + |sep| <= |p + sep| {
        assert (p + sep)[i..i + |sep|][0] == p[i];
      }
    }
  }

  /** A part without the separator's second character cannot be cut early, when that character differs from the first. */
  lemma SeparableWithoutSecond(p: string, sep: string)
    requires |sep| > 1 && sep[0] != sep[1] && sep[1] !in p
    ensures Separable(p, sep)
  {
    forall i: nat | i < |p| ensures !OccursAt(p + sep, sep, i) {
      if i + |sep| <= |p + sep| {
        assert (p + sep)[i..i + |sep|][1] == (p + sep)[i + 1];
        if i + 1 < |p| {
          assert p[i + 1] in p;
          assert (p + sep)[i + 1] == p[i + 1];
        } else {
          assert (p + sep)[i + 1] == sep[0];
        }
      }
    }
  }

  /** `s.replace("\\", "/")`: every backslash becomes a slash, every other character stays. */
  function ForwardSlashes(s: string): (r: string)
    ensures |r| == |s| && '\\' !in r
    ensures forall i :: 0 <= i < |s| ==> r[i] == (if s[i] == '\\' then '/' else s[i])
  {
    seq(|s|, i requires 0 <= i < |s| => if s[i] == '\\' then '/' else s[i])
  }

  /** A path without backslashes is left as it is. */
  lemma ForwardSlashesKeeps(s: string)
    requires '\\' !in s
    ensures ForwardSlashes(s) == s
  {
    assert forall i :: 0 <= i < |s| ==> ForwardSlashes(s)[i] == s[i];
  }

  /** `s` without its trailing `c` characters: what path normalisation does to trailing separators. */
  function TrimTrailing(s: string, c: char): (r: string)
    ensures |r| <= |s| && r == s[..|r|]
    ensures r == [] || r[|r| - 1] != c
    ensures forall i :: |r| <= i < |s| ==> s[i] == c
  {
    if |s| > 0 && s[|s| - 1] == c then TrimTrailing(s[..|s| - 1], c) else s
  }

  /** The three properties of `TrimTrailing` single out its result. */
  lemma TrimTrailingUnique(s: string, c: char, r: string)
    requires |r| <= |s| && r == s[..|r|]
    requires r == [] || r[|r| - 1] != c
    requires forall i :: |r| <= i < |s| ==> s[i] == c
    ensures TrimTrailing(s, c) == r
  {
  }

  function DigitChar(d: nat): char
    requires d < 10
  {
    ('0' as int + d) as char
  }

  /** `str(n)` for a natural number: its decimal digits. */
  function DecimalString(n: nat): (s: string)
    ensures |s| > 0
    ensures forall i :: 0 <= i < |s| ==> '0' <= s[i] <= '9'
    ensures s[0] == '0' ==> n == 0
    ensures |s| == 1 || s[0] != '0'
  {
    if n < 10 then [DigitChar(n)]
    else DecimalString(n / 10) + [DigitChar(n % 10)]
  }

  /** `int(s)` for a string of decimal digits. */
  function DecimalValue(s: string): int
  {
    if s == [] then 0
    else 10 * DecimalValue(s[..|s| - 1]) + (s[|s| - 1] as int - '0' as int)
  }

  /** Reading back the decimal digits of `n` gives `n`. */
  lemma {:induction false} DecimalRoundTrip(n: nat)
    ensures DecimalValue(DecimalString(n)) == n
  {
    var s := DecimalString(n);
    if n < 10 {
      assert s[..|s| - 1] == [];
    } else {
      assert s[..|s| - 1] == DecimalString(n / 10);
      DecimalRoundTrip(n / 10);
    }
  }

  /** Distinct numbers have distinct decimal strings. */
  lemma DecimalStringInjective(i: nat, j: nat)
    requires DecimalString(i) == DecimalString(j)
    ensures i == j
  {
    DecimalRoundTrip(i);
    DecimalRoundTrip(j);
  }

  /** Two strings with the same prefix are equal exactly when their rests are. */
  lemma PrefixCancel(prefix: string, a: string, b: string)
    ensures prefix + a == prefix + b <==> a == b
  {
    if prefix + a == prefix + b {
      assert a == (prefix + a)[|prefix|..];
      assert b == (prefix + b)[|prefix|..];
    }
  }

  /** Two strings with the same suffix are equal exactly when their beginnings are. */
  lemma SuffixCancel(a: string, b: string, suffix: string)
    ensures a + suffix == b + suffix <==> a == b
  {
    if a + suffix == b + suffix {
      assert a == (a + suffix)[..|a|];
      assert b == (b + suffix)[..|b|];
    }
  }
}
